=== FILE: README.md ===
# Image provider adapters

A Dafny model of the provider adapter layer of the nuxt image module. An
adapter turns an image source and a small request record — width and height
in pixels, a fit mode, an output format, each optional — into the URL
grammar of one image service. The model covers six adapters:

- **fastly** (`fastly.dfy`): query `?width=&height=&fit=&format=`, joined by `&`. The fit `contain` is written `bounds`.
- **imgix** (`imgix.dfy`): query `?w=&h=&fit=&fm=`, joined by `&`. The fit `contain` is written `fill`.
- **imagekit** (`imagekit.dfy`): a single parameter `?tr=` holding `w-W,h-H,cm-<fit>,f-<format>`. The fit `contain` is written `pad_resize`.
- **twicpics** (`twicpics.dfy`): `?twic=v1`, then `/format=<format>` when a format is asked, then `/<fit>=<W>x<H>`. The fit defaults to `cover` and a missing side is written `-`.
- **cloudinary** (`cloudinary.dfy`): one comma-joined transform segment in front of the path. It has three explicit modes:
  - plain mode always starts the segment with `f_<format or auto>,q_auto` and drops the source's extension;
  - fetch mode writes the absolute source verbatim after the segment;
  - upload mode puts its folder between the segment and the relative source.
- **local** (`ipx.dfy`): the site's own proxy path `/_image/local/remote/<format or _>/<size>/<source>`, where:
  - `<size>` is `_`, `w_W`, `h_H`, `s_W_H` or `f_<fit>,s_W_H`;
  - `<source>` is the source resolved against the site origin, then percent-encoded (section 2.1 of RFC 3986, over UTF-8).

Shared pieces:

- `modifiers.dfy` — the request record `Modifiers`. An absent field is `None`; a pixel count is at least 1; a word is non-empty.
- `tokens.dfy` — `key<kv>value` token lists: rendering, parsing, and assembly from optional fields in a fixed key order.
- `query_style.dfy` — the grammar the three query-string vendors share. Each of them instantiates it with its own keys, characters and fit table.
- `text.dfy` — decimal numbers, splitting and joining.
- `utf8.dfy`, `percent.dfy` — the encoding of the local adapter's source.
- `rows.dfy` — the six requests of the reference table.

Every adapter has a decoder as its partner. A round-trip lemma proves that the decoder reads the adapter's URL back into the request, in the form the URL records it:

- the fit is renamed through the vendor's table;
- twicpics defaults the fit;
- the local proxy drops a fit that lacks one of the dimensions.

For fastly, imgix, imagekit and twicpics, further lemmas state what each URL contains:

- each key is present exactly when its field is, and carries the field's value;
- keys follow the vendor's fixed order;
- a request with no fields leaves the source unchanged.

Cloudinary's plain mode and the local proxy write default tokens even for a request with no fields (`/f_auto,q_auto/test` and `/_image/local/remote/_/_/…`, test/unit/providers.test.ts:14-15). `Cloudinary.PlainContents` states which cloudinary tokens appear and when; `Ipx.SizeContents` states which size token the proxy path carries, and `Ipx.RoundTrip` reads the whole path back.

Reference lemmas prove that each adapter reproduces every row of the reference table character for character. Those rows cover `/test.png` with six requests, plus the cloudinary fetch and upload cases.

Three behaviours of the reference table shape the model:

- **Local adapter and static assets.** The table marks `/test.png` static and still expects the proxy URL. The static-asset flag is an input that is passed through, and the URL is always the proxy path.
- **Cloudinary plain versus remote modes.** The plain-mode rows always carry an `f_` token (`f_auto` unless a format is asked for) and `q_auto`; the fetch and upload cases carry neither, keep the extension and omit the base URL. Each mode is modelled as the table shows it.
- **Adding a modifier can remove a token.** The local `w_200` becomes `s_200_200` once a height is added (test/unit/providers.test.ts:23 and :41), and cloudinary's `f_auto` becomes `f_jpeg` once a format is added (:51 and :60). The model therefore states no monotonicity property.

## Model

| member | source | states |
|---|---|---|
| Canonical.Translate | test/unit/providers.test.ts:49-64 | a vendor's fit table renames only the fit words it lists, passes any other word through verbatim, and leaves an absent fit absent |
| Tokens.ParseRender | test/unit/providers.test.ts:17-64 | a token list whose keys and values avoid the separator characters parses back from its rendering to the same list |
| Tokens.AssembleContents | test/unit/providers.test.ts:17-64 | the token for key i is in the assembled list exactly when field i is present, with that field's value |
| Tokens.AssembleInOrder | test/unit/providers.test.ts:17-64 | assembled tokens follow the fixed key order |
| QueryStyle.Encode | test/unit/providers.test.ts:17-64 | a request with no fields leaves the source unchanged; any other request puts the lead text right after the source |
| QueryStyle.RoundTrip | test/unit/providers.test.ts:17-64 | decoding the query-style URL gives back the address and the request (fit renamed), field for field |
| QueryStyle.ParamContents | test/unit/providers.test.ts:17-64 | the query holds `key=v` exactly when the vendor's view of that field is v, and the tokens are in key order |
| Fastly.Url | test/unit/providers.test.ts:17-26 | no modifiers: the URL is the source itself; otherwise the source followed by `?` |
| Fastly.QueryContents | test/unit/providers.test.ts:26-62 | `width`, `height`, `fit`, `format` each appear exactly when set, with its value, `contain` written `bounds`, in that order |
| Fastly.RoundTrip | test/unit/providers.test.ts:17-62 | the fastly URL decodes back to the source and the request with the fit renamed |
| Fastly.Reference | test/unit/providers.test.ts:17-62 | the six fastly URLs of the reference table, exactly |
| Imgix.Url | test/unit/providers.test.ts:18-27 | no modifiers: the URL is the source itself; otherwise the source followed by `?` |
| Imgix.QueryContents | test/unit/providers.test.ts:27-63 | `w`, `h`, `fit`, `fm` each appear exactly when set, with its value, `contain` written `fill`, in that order |
| Imgix.RoundTrip | test/unit/providers.test.ts:18-63 | the imgix URL decodes back to the source and the request with the fit renamed |
| Imgix.Reference | test/unit/providers.test.ts:18-63 | the six imgix URLs of the reference table, exactly |
| Imagekit.Url | test/unit/providers.test.ts:19-28 | no modifiers: no `tr` parameter; otherwise the source followed by `?tr=` |
| Imagekit.QueryContents | test/unit/providers.test.ts:28-64 | `w-`, `h-`, `cm-`, `f-` tokens each appear exactly when set, with its value, `contain` written `pad_resize`, in that order |
| Imagekit.RoundTrip | test/unit/providers.test.ts:19-64 | the imagekit URL decodes back to the source and the request with the fit renamed |
| Imagekit.Reference | test/unit/providers.test.ts:19-64 | the six imagekit URLs of the reference table, exactly |
| Twicpics.Dim | test/unit/providers.test.ts:25-34 | a missing side is written `-` and only a missing side is |
| Twicpics.Url | test/unit/providers.test.ts:16-61 | no modifiers: the source itself; otherwise `?twic=v1`, then `/format=<f>` exactly when a format is given, then the resize step |
| Twicpics.RoundTrip | test/unit/providers.test.ts:16-61 | the twicpics URL decodes back to the source, the dimensions, the format and the fit (defaulted to `cover`) |
| Twicpics.Reference | test/unit/providers.test.ts:16-61 | the six twicpics URLs of the reference table, exactly |
| Cloudinary.StripExtension | test/unit/providers.test.ts:15 | the result is a prefix of the path; when it differs, exactly a dot and a slash- and dot-free tail after the last slash were removed; when equal, there was no such dot |
| Cloudinary.StripExtensionOf | test/unit/providers.test.ts:15 | a stem followed by `.ext` (ext free of dots and slashes) loses exactly the `.ext` |
| Cloudinary.TransformsEmpty | test/unit/providers.test.ts:15-161 | plain mode always writes a transform segment; fetch and upload modes write one exactly when something is asked |
| Cloudinary.Url | test/unit/providers.test.ts:15-161 | the URL is the mode's root, a slash, and ends with `/` and the mode's path |
| Cloudinary.PlainContents | test/unit/providers.test.ts:15-60 | plain mode: `f_` carries the format or `auto`, `q_auto` is always there, `w_`, `h_`, `c_` appear exactly when set (`contain` as `scale`), in that order |
| Cloudinary.RemoteContents | test/unit/providers.test.ts:124-161 | fetch and upload modes: `f_`, `w_`, `h_`, `c_` appear exactly when set, with no default tokens, in that order |
| Cloudinary.RoundTrip | test/unit/providers.test.ts:15-161 | the cloudinary URL decodes back to the request (fit renamed, plain-mode `auto` format read as none) and the path |
| Cloudinary.UploadPath | test/unit/providers.test.ts:150-161 | upload mode places the folder `remote` in front of the relative source |
| Cloudinary.Reference | test/unit/providers.test.ts:15-60 | the six plain-mode cloudinary URLs of the reference table, exactly |
| Cloudinary.RemoteReference | test/unit/providers.test.ts:112-163 | the fetch URL `/w_300,h_300/<absolute source>` and the upload URL `/w_300,h_300/remote/<source>`, exactly |
| Ipx.Resolve | test/unit/providers.test.ts:14 | an absolute source is kept; any other source follows the origin and one slash, less its own leading slash |
| Ipx.ResolveIdempotent | test/unit/providers.test.ts:14 | against an absolute origin the resolved address is absolute, and resolving it again changes nothing |
| Ipx.Url | test/unit/providers.test.ts:14-59 | the proxy URL starts with `/_image/local/remote/` |
| Ipx.SizeContents | test/unit/providers.test.ts:14-59 | the size segment is `_` without dimensions, `w_` or `h_` with one, `s_` with both, and `f_` in front when a fit comes with both; a clean format segment is `_` exactly when no format is asked |
| Ipx.GetImage | test/unit/providers.test.ts:14-59 | the answer's URL is a proxy URL that decodes back to the request as the proxy keeps it and to the resolved source; the static-asset flag is the caller's input, passed through |
| Ipx.RoundTrip | test/unit/providers.test.ts:14-59 | the proxy URL decodes back to the format, the dimensions, the fit when both dimensions are given, and the resolved source |
| Ipx.UrlTidy | test/unit/providers.test.ts:85 | the proxy URL holds no double slash, so the slash clean-up the caller applies leaves it unchanged |
| Ipx.CleanDoubleSlashesNoop | test/unit/providers.test.ts:85 | the clean-up leaves text without a double slash unchanged; for text without `:` it leaves only such text unchanged |
| Ipx.CleanKeepsScheme | test/unit/providers.test.ts:85 | a scheme's `://` survives the clean-up; only the text after it is cleaned |
| Ipx.CleanCollapses | test/unit/providers.test.ts:85 | after any text without a `:`, and so outside any scheme separator, a double slash cleans exactly as a single slash does |
| Ipx.SourceEncoding | test/unit/providers.test.ts:14 | `/test.png` on `http://localhost:3000` encodes as `http%3A%2F%2Flocalhost%3A3000%2Ftest.png` |
| Ipx.Reference | test/unit/providers.test.ts:14-85 | the six local URLs of the reference table after slash clean-up, exactly; `isStatic` is true because the caller passes the table's `true` in |
| Percent.RoundTrip | test/unit/providers.test.ts:14 | percent-decoding the encoding of any text gives the text back |
| Percent.EncodeAlphabet | test/unit/providers.test.ts:14 | the encoding holds only unreserved characters and `%`, so no `/` or `:` survives |
| Percent.EncodeAppend | test/unit/providers.test.ts:14 | the encoding of a concatenation is the concatenation of the encodings |
| Percent.EncodeUnreservedText | test/unit/providers.test.ts:14 | a text of unreserved characters is its own encoding |
| Utf8.DecodeEncode | test/unit/providers.test.ts:14 | decoding the UTF-8 encoding of any text gives the text back |
| Text.ParseNatToString | test/unit/providers.test.ts:22-64 | a pixel count written in decimal reads back as the same count |
| Text.SplitJoin | test/unit/providers.test.ts:14-61 | splitting separator-free parts joined by the separator gives the parts back |

## Left out

- Loading the adapters is not modelled: the `fs.exists` check, the dynamic import of the runtime module and the `typeof` checks (test/unit/providers.test.ts:76-81 and alike) are I/O and reflection.
- The `{ runtime, runtimeOptions }` provider-factory shape is not modelled. The base URL and the cloudinary mode are plain parameters.
- Cloudinary's choice of mode from the shape of its base URL is not modelled. The mode is given explicitly, because the reference cases fix only the outputs.
- Ipx.CleanDoubleSlashes: the `cleanDoubleSlashes` utility's source is not part of this model. The stand-in keeps every `://` and collapses every other run of slashes. The proofs use only that text without a double slash is left unchanged.
- Ipx.GetImage: the static-asset check is a boolean supplied by the caller, not a manifest lookup.
- Ipx.GetImage: the site origin is a parameter, not the ambient request origin.
- Percent.Encode keeps only the unreserved characters of section 2.3 of RFC 3986. JavaScript's `encodeURIComponent` also keeps `! ' ( ) *`. The sources in the reference table contain none of these.
- Percent.Encode: `encodeURIComponent` throws `URIError` on a lone UTF-16 surrogate. That error path is not modelled, because a Dafny `char` is a Unicode scalar value and cannot hold a lone surrogate.
- Twicpics.Url: a request with neither dimension yields a `-x-` step whenever it has a format or a fit. A format alone, such as `jpeg`, gives `?twic=v1/format=jpeg/cover=-x-`, and a fit alone gives `?twic=v1/contain=-x-`. The reference table never shows such a request, so the model follows the table's grammar as an extrapolation.
- Ipx.RoundTrip: does not cover a format spelled `_`, because that format is indistinguishable from "no format" in the proxy path.
- Ipx.RoundTrip, Ipx.UrlTidy, Ipx.GetImage: do not cover a fit or format containing `/`, or a fit containing `,`. A format `/jpeg`, for instance, puts `//` into the proxy path, so the slash clean-up would change it, and `Ipx.GetImage` promises a decodable URL only under the same limit.
- Fastly.RoundTrip, Imgix.RoundTrip, Imagekit.RoundTrip, Twicpics.RoundTrip: each requires the request's words to avoid the vendor's separator characters, and the address to contain no `?` where the query starts. Such words cannot be read back unambiguously.
- Cloudinary.RoundTrip: requires the fit and format to avoid `,` and `/`, which separate the transform tokens and segments. A fetch or upload request with no fields writes no transform segment, so it is not read back (`mode.Plain? || !IsEmpty(m)`).
- Canonical.Modifiers: a width or height of zero, a negative one or a fractional one cannot be written, because the type holds only whole counts of at least one. Such a value is therefore never rejected as a contract violation: the model has no input that carries it, and the reference table uses none.
- Canonical.Modifiers: JavaScript renders numbers such as `200.5` or `1e+21` in its own notation. The model writes whole numbers in plain decimal digits.
- Canonical.Modifiers: an empty fit or format word cannot be written, because the type of words excludes the empty string.
- Cloudinary.RemoteContents: the fetch and upload reference cases show only `w_` and `h_`. The `f_` and `c_` tokens of these modes, and their places before and after the dimensions, follow the plain-mode order as an extrapolation; a format alone gives `/f_webp/<source>`.
- Cloudinary.Url: a fetch or upload request with no fields gets no transform segment. The reference cases never show this request, so the choice is an extrapolation.
- Fit words other than `contain` pass through every vendor's table verbatim. The reference table renames only `contain`.
- Determinism and absence of side effects are not stated separately, because every member is a pure function.

=== FILE: cloudinary.dfy ===
/**
  The cloudinary adapter: one comma-separated transform segment of
  `key_value` tokens, then the image path. Three composition modes:

  - plain (a base URL, possibly empty): the segment always opens with the
    format (`f_auto` when none is asked) and `q_auto`, then `w_`, `h_`,
    `c_`; the path is the source without its leading slash and extension;
  - fetch: the segment carries only the asked fields (`f_`, `w_`, `h_`,
    `c_`) and the path is the absolute source verbatim;
  - upload: as fetch, but the path is the upload folder and then the
    relative source.

  Fit `contain` is written `scale`.
 */
module Cloudinary {
  import opened Optional
  import opened Text
  import opened Tokens
  import opened Canonical
  import Rows

  /** How the configured base URL composes with the source. */
  datatype Mode =
    | Plain(base: string)
    | Fetch
    | Upload(folder: string)

  const Fits: map<Name, Name> := map["contain" := "scale"]

  const PlainKeys: seq<string> := ["f", "q", "w", "h", "c"]
  const RemoteKeys: seq<string> := ["f", "w", "h", "c"]

  lemma TranslateFit(fit: Option<Name>)
    ensures Translate(Fits, fit) == if fit == Some("contain") then Some("scale") else fit
  {
  }

  function Keys(mode: Mode): seq<string> {
    if mode.Plain? then PlainKeys else RemoteKeys
  }

  /** The transform fields, in the order of the mode's keys. */
  function Values(mode: Mode, m: Modifiers): (vs: seq<Option<string>>)
    ensures |vs| == |Keys(mode)|
  {
    var fit, w, h := Translate(Fits, m.fit), ShowPixels(m.width), ShowPixels(m.height);
    if mode.Plain? then [Some(m.format.GetOr("auto")), Some("auto"), w, h, fit]
    else [m.format, w, h, fit]
  }

  /** The transform segment's tokens. */
  function Transforms(mode: Mode, m: Modifiers): seq<Token> {
    Assemble(Keys(mode), Values(mode, m))
  }

  /** The source without one leading slash. */
  function TrimSlash(s: string): (r: string)
    ensures if |s| > 0 && s[0] == '/' then s == "/" + r else r == s
  {
    if |s| > 0 && s[0] == '/' then s[1..] else s
  }

  /**
    The path without the extension of its last segment: everything from the
    last dot on, when no slash follows that dot.
   */
  function StripExtension(s: string): (r: string)
    ensures r <= s
    ensures r != s ==> s[|r|] == '.' && '.' !in s[|r| + 1..] && '/' !in s[|r| + 1..]
    ensures r == s ==> forall i :: 0 <= i < |s| && s[i] == '.' ==> '/' in s[i + 1..]
  {
    match LastIndexOf(s, '.')
    case None => s
    case Some(i) =>
      if '/' !in s[i + 1..] then s[..i]
      else
        assert forall j :: 0 <= j < |s| && s[j] == '.' ==> '/' in s[j + 1..] by {
          forall j | 0 <= j < |s| && s[j] == '.'
            ensures '/' in s[j + 1..]
          {
            var k :| i + 1 <= k < |s| && s[k] == '/';
            assert s[j + 1..][k - j - 1] == '/';
          }
        }
        s
  }

  /** The address text that ends the URL. */
  function Path(mode: Mode, src: string): string {
    match mode
    case Plain(_) => StripExtension(TrimSlash(src))
    case Fetch => src
    case Upload(folder) => folder + "/" + TrimSlash(src)
  }

  /** What precedes the transform segment. */
  function Root(mode: Mode): string {
    if mode.Plain? then mode.base else ""
  }

  /** The image URL for `src` in `mode`; an empty transform segment is left out. */
  function Url(mode: Mode, src: string, m: Modifiers): (url: string)
    ensures Root(mode) + "/" <= url
    ensures |url| > |Path(mode, src)| && url[|url| - |Path(mode, src)| - 1..] == "/" + Path(mode, src)
  {
    var ts := Transforms(mode, m);
    var tail := "/" + Path(mode, src);
    var url := if ts == [] then Root(mode) + tail else Root(mode) + "/" + Render(ts, '_', ',') + tail;
    assert url[|url| - |tail|..] == tail;
    url
  }

  /** The request as the URL records it: fit renamed, and in plain mode an explicit `auto` format is no format. */
  function View(mode: Mode, m: Modifiers): Modifiers {
    m.(fit := Translate(Fits, m.fit),
       format := if mode.Plain? && m.format == Some("auto") then None else m.format)
  }

  /** Reads a transform segment back into a request. */
  function ReadTransforms(mode: Mode, seg: string): Option<Modifiers> {
    match Parse(seg, '_', ',')
    case None => None
    case Some(ts) =>
      match Disassemble(Keys(mode), ts)
      case None => None
      case Some(vs) =>
        if mode.Plain? then
          if vs[0].Some? && vs[1] == Some("auto") then
            FromFields([vs[2], vs[3], vs[4], if vs[0] == Some("auto") then None else vs[0]])
          else None
        else FromFields([vs[1], vs[2], vs[3], vs[0]])
  }

  /** Reads a URL of this mode back into the request and the path. */
  function Decode(mode: Mode, url: string): Option<(Modifiers, string)> {
    var root := Root(mode);
    if root + "/" <= url then
      match SplitFirst(url[|root| + 1..], '/')
      case None => None
      case Some((seg, path)) =>
        match ReadTransforms(mode, seg)
        case None => None
        case Some(m) => Some((m, path))
    else None
  }

  /** Plain mode always writes a transform segment; the remote modes exactly when something is asked. */
  lemma TransformsEmpty(mode: Mode, m: Modifiers)
    ensures Transforms(mode, m) == [] <==> !mode.Plain? && IsEmpty(m)
  {
    AssembleEmpty(Keys(mode), Values(mode, m));
    if mode.Plain? {
      assert Values(mode, m)[1].Some?;
    } else if !IsEmpty(m) {
      var vs := Values(mode, m);
      assert vs[0].Some? || vs[1].Some? || vs[2].Some? || vs[3].Some?;
    }
  }

  lemma KeysValid(mode: Mode)
    ensures Distinct(Keys(mode))
    ensures forall i :: 0 <= i < |Keys(mode)| ==>
              '_' !in Keys(mode)[i] && ',' !in Keys(mode)[i] && '/' !in Keys(mode)[i]
  {
  }

  lemma ValuesClean(mode: Mode, m: Modifiers)
    requires m.fit.Some? ==> ',' !in m.fit.value && '/' !in m.fit.value
    requires m.format.Some? ==> ',' !in m.format.value && '/' !in m.format.value
    ensures forall i :: 0 <= i < |Values(mode, m)| && Values(mode, m)[i].Some? ==>
              ',' !in Values(mode, m)[i].value && '/' !in Values(mode, m)[i].value
  {
    TranslateFit(m.fit);
    var vs := Values(mode, m);
    forall i | 0 <= i < |vs| && vs[i].Some?
      ensures ',' !in vs[i].value && '/' !in vs[i].value
    {
      if vs[i] == ShowPixels(m.width) && m.width.Some? {
        assert AllDigits(vs[i].value);
      } else if vs[i] == ShowPixels(m.height) && m.height.Some? {
        assert AllDigits(vs[i].value);
      }
    }
  }

  /** The segment is a well-formed token list without slashes, and parses back to its tokens. */
  lemma SegmentParses(mode: Mode, m: Modifiers)
    requires m.fit.Some? ==> ',' !in m.fit.value && '/' !in m.fit.value
    requires m.format.Some? ==> ',' !in m.format.value && '/' !in m.format.value
    ensures '/' !in Render(Transforms(mode, m), '_', ',')
    ensures Parse(Render(Transforms(mode, m), '_', ','), '_', ',') == Some(Transforms(mode, m))
  {
    var keys, vs := Keys(mode), Values(mode, m);
    var ts := Transforms(mode, m);
    KeysValid(mode);
    ValuesClean(mode, m);
    AssembleSafe(keys, vs, '_', ',');
    ParseRender(ts, '_', ',');
    AssembleSafe(keys, vs, '_', '/');
    RenderFree(ts, '_', ',', '/');
  }

  /** The decoded fields are the fields of the view. */
  lemma ReadValues(mode: Mode, m: Modifiers)
    ensures Disassemble(Keys(mode), Transforms(mode, m)) == Some(Values(mode, m))
    ensures mode.Plain? ==> Values(mode, m)[0].Some? && Values(mode, m)[1] == Some("auto")
    ensures mode.Plain? ==> FromFields([Values(mode, m)[2], Values(mode, m)[3], Values(mode, m)[4],
              if Values(mode, m)[0] == Some("auto") then None else Values(mode, m)[0]]) == Some(View(mode, m))
    ensures !mode.Plain? ==> FromFields([Values(mode, m)[1], Values(mode, m)[2], Values(mode, m)[3],
              Values(mode, m)[0]]) == Some(View(mode, m))
  {
    KeysValid(mode);
    DisassembleAssemble(Keys(mode), Values(mode, m));
    var vs := Values(mode, m);
    var v := View(mode, m);
    if mode.Plain? {
      assert [vs[2], vs[3], vs[4], if vs[0] == Some("auto") then None else vs[0]] == Fields(v);
    } else {
      assert [vs[1], vs[2], vs[3], vs[0]] == Fields(v);
    }
    FromFieldsFields(v);
  }

  lemma ReadSegment(mode: Mode, m: Modifiers)
    requires m.fit.Some? ==> ',' !in m.fit.value && '/' !in m.fit.value
    requires m.format.Some? ==> ',' !in m.format.value && '/' !in m.format.value
    ensures ReadTransforms(mode, Render(Transforms(mode, m), '_', ',')) == Some(View(mode, m))
  {
    SegmentParses(mode, m);
    ReadValues(mode, m);
  }

  /** A URL made of the root, a slash-free segment and a path decodes through the segment. */
  lemma DecodeShape(mode: Mode, seg: string, path: string)
    requires '/' !in seg
    ensures Decode(mode, Root(mode) + "/" + seg + ("/" + path))
      == match ReadTransforms(mode, seg)
         case None => None
         case Some(m) => Some((m, path))
  {
    var root := Root(mode);
    var url := root + "/" + seg + ("/" + path);
    assert url == root + "/" + (seg + ['/'] + path);
    assert url[|root| + 1..] == seg + ['/'] + path;
    SplitFirstJoin(seg, '/', path);
  }

  /**
    Decoding a URL gives back the request, fit renamed, and the path, in
    every mode, provided there is a segment to read.
   */
  lemma RoundTrip(mode: Mode, src: string, m: Modifiers)
    requires mode.Plain? || !IsEmpty(m)
    requires m.fit.Some? ==> ',' !in m.fit.value && '/' !in m.fit.value
    requires m.format.Some? ==> ',' !in m.format.value && '/' !in m.format.value
    ensures Decode(mode, Url(mode, src, m)) == Some((View(mode, m), Path(mode, src)))
  {
    TransformsEmpty(mode, m);
    SegmentParses(mode, m);
    ReadSegment(mode, m);
    DecodeShape(mode, Render(Transforms(mode, m), '_', ','), Path(mode, src));
  }

  /**
    In plain mode each token is present exactly when its field is, with the
    field's value, the format (defaulting to `auto`) and `q_auto` always;
    tokens follow the key order.
   */
  lemma PlainContents(base: string, m: Modifiers, v: string)
    ensures (Token("f", v) in Transforms(Plain(base), m)) <==> v == m.format.GetOr("auto")
    ensures (Token("q", v) in Transforms(Plain(base), m)) <==> v == "auto"
    ensures (Token("w", v) in Transforms(Plain(base), m)) <==> m.width.Some? && v == NatToString(m.width.value)
    ensures (Token("h", v) in Transforms(Plain(base), m)) <==> m.height.Some? && v == NatToString(m.height.value)
    ensures (Token("c", v) in Transforms(Plain(base), m))
              <==> m.fit.Some? && v == (if m.fit.value == "contain" then "scale" else m.fit.value)
    ensures InOrder(PlainKeys, Transforms(Plain(base), m))
  {
    var vs := Values(Plain(base), m);
    KeysValid(Plain(base));
    TranslateFit(m.fit);
    AssembleInOrder(PlainKeys, vs);
    AssembleContents(PlainKeys, vs, 0, v);
    AssembleContents(PlainKeys, vs, 1, v);
    AssembleContents(PlainKeys, vs, 2, v);
    AssembleContents(PlainKeys, vs, 3, v);
    AssembleContents(PlainKeys, vs, 4, v);
  }

  /**
    In the fetch and upload modes each token is present exactly when its
    field is, with the field's value, and nothing else is written; tokens
    follow the key order.
   */
  lemma RemoteContents(mode: Mode, m: Modifiers, v: string)
    requires !mode.Plain?
    ensures (Token("f", v) in Transforms(mode, m)) <==> m.format == Some(v)
    ensures (Token("w", v) in Transforms(mode, m)) <==> m.width.Some? && v == NatToString(m.width.value)
    ensures (Token("h", v) in Transforms(mode, m)) <==> m.height.Some? && v == NatToString(m.height.value)
    ensures (Token("c", v) in Transforms(mode, m))
              <==> m.fit.Some? && v == (if m.fit.value == "contain" then "scale" else m.fit.value)
    ensures forall i :: 0 <= i < |Transforms(mode, m)| ==> Transforms(mode, m)[i].key in RemoteKeys
    ensures InOrder(RemoteKeys, Transforms(mode, m))
  {
    var vs := Values(mode, m);
    KeysValid(mode);
    TranslateFit(m.fit);
    AssembleInOrder(RemoteKeys, vs);
    AssembleContents(RemoteKeys, vs, 0, v);
    AssembleContents(RemoteKeys, vs, 1, v);
    AssembleContents(RemoteKeys, vs, 2, v);
    AssembleContents(RemoteKeys, vs, 3, v);
  }

  /** The plain segment, field by field: format and quality first, then the optional fields. */
  lemma PlainFields(base: string, m: Modifiers)
    ensures Transforms(Plain(base), m)
      == [Token("f", m.format.GetOr("auto")), Token("q", "auto")]
         + Opt("w", ShowPixels(m.width)) + Opt("h", ShowPixels(m.height)) + Opt("c", Translate(Fits, m.fit))
  {
    var vs := Values(Plain(base), m);
    var o2, o3, o4 := Opt("w", vs[2]), Opt("h", vs[3]), Opt("c", vs[4]);
    assert PlainKeys[1..] == ["q", "w", "h", "c"];
    AssembleFour(PlainKeys[1..], vs[1..]);
    assert Transforms(Plain(base), m) == [Token("f", m.format.GetOr("auto"))] + ([Token("q", "auto")] + o2 + o3 + o4);
  }

  /** The fetch and upload segment, field by field. */
  lemma RemoteFields(mode: Mode, m: Modifiers)
    requires !mode.Plain?
    ensures Transforms(mode, m)
      == Opt("f", m.format) + Opt("w", ShowPixels(m.width)) + Opt("h", ShowPixels(m.height))
         + Opt("c", Translate(Fits, m.fit))
  {
    AssembleFour(RemoteKeys, Values(mode, m));
  }

  /** A URL with a segment is the root, the tokens written one by one after a slash, then the path. */
  lemma UrlEmits(mode: Mode, src: string, m: Modifiers)
    requires Transforms(mode, m) != []
    ensures Url(mode, src, m) == Emit(Root(mode), "/", Transforms(mode, m), '_', ',') + ("/" + Path(mode, src))
  {
    EmitRender(Root(mode), "/", Transforms(mode, m), '_', ',');
  }

  /** The two remote-mode requests of the reference tests. */
  const Square: Modifiers := Modifiers(Some(300), Some(300), None, None)
  const FetchSource: string := "https://upload.wikimedia.org/wikipedia/commons/1/13/Benedict_Cumberbatch_2011.png"
  const UploadSource: string := "1/13/Benedict_Cumberbatch_2011.png"

  lemma PlainRow(m: Modifiers)
    requires m.fit.None? && m.format.None?
    ensures Transforms(Plain(""), m)
      == [Token("f", "auto"), Token("q", "auto")] + Opt("w", ShowPixels(m.width)) + Opt("h", ShowPixels(m.height))
  {
    PlainFields("", m);
  }

  lemma RowTransforms()
    ensures Transforms(Plain(""), NoModifiers) == [Token("f", "auto"), Token("q", "auto")]
    ensures Transforms(Plain(""), Rows.Width) == [Token("f", "auto"), Token("q", "auto"), Token("w", "200")]
  {
    Rows.Counts();
    PlainRow(NoModifiers);
    PlainRow(Rows.Width);
  }

  lemma SizedRowTransforms()
    ensures Transforms(Plain(""), Rows.Height) == [Token("f", "auto"), Token("q", "auto"), Token("h", "200")]
    ensures Transforms(Plain(""), Rows.Both)
      == [Token("f", "auto"), Token("q", "auto"), Token("w", "200"), Token("h", "200")]
  {
    Rows.Counts();
    PlainRow(Rows.Height);
    PlainRow(Rows.Both);
  }

  lemma FittedRowTransforms()
    ensures Transforms(Plain(""), Rows.Contain)
      == [Token("f", "auto"), Token("q", "auto"), Token("w", "200"), Token("h", "200"), Token("c", "scale")]
    ensures Transforms(Plain(""), Rows.Jpeg)
      == [Token("f", "jpeg"), Token("q", "auto"), Token("w", "200"), Token("h", "200"), Token("c", "scale")]
  {
    Rows.Counts();
    TranslateFit(Some("contain"));
    PlainFields("", Rows.Contain);
    PlainFields("", Rows.Jpeg);
  }

  lemma RemoteTransforms()
    ensures Transforms(Fetch, Square) == [Token("w", "300"), Token("h", "300")]
    ensures Transforms(Upload("remote"), Square) == [Token("w", "300"), Token("h", "300")]
  {
    Rows.Counts();
    RemoteFields(Fetch, Square);
    RemoteFields(Upload("remote"), Square);
  }

  /** Literal pieces of the reference URLs, stated apart so that the solver joins each piece once. */
  lemma Pieces()
    ensures "" + ("/" + Show(Token("f", "auto"), '_')) == "/f_auto"
    ensures "" + ("/" + Show(Token("f", "jpeg"), '_')) == "/f_jpeg"
    ensures "" + ("/" + Show(Token("w", "300"), '_')) == "/w_300"
    ensures "," + Show(Token("q", "auto"), '_') == ",q_auto"
    ensures "," + Show(Token("w", "200"), '_') == ",w_200"
    ensures "," + Show(Token("h", "200"), '_') == ",h_200"
    ensures "," + Show(Token("h", "300"), '_') == ",h_300"
    ensures "," + Show(Token("c", "scale"), '_') == ",c_scale"
  {
  }

  /** The extension is the text after the last dot of the last segment. */
  lemma StripExtensionOf(stem: string, ext: string)
    requires '.' !in ext && '/' !in ext
    ensures StripExtension(stem + "." + ext) == stem
  {
    var s := stem + "." + ext;
    assert s[|stem|] == '.';
    var r := LastIndexOf(s, '.');
    assert r.value == |stem|;
    assert s[|stem| + 1..] == ext;
    assert s[..|stem|] == stem;
  }

  lemma TestStem()
    ensures "/" + Path(Plain(""), Rows.Source) == "/test"
  {
    assert TrimSlash(Rows.Source) == "test" + "." + "png";
    StripExtensionOf("test", "png");
  }

  lemma UploadPath()
    ensures "/" + Path(Upload("remote"), UploadSource) == "/remote/" + UploadSource
  {
    assert TrimSlash(UploadSource) == UploadSource;
  }

  /** The reference rows with an empty base URL: each URL exactly as the table gives it, written as the
    concatenation of its literal pieces so that the solver need not split one long literal. */
  lemma Reference()
    ensures Url(Plain(""), Rows.Source, NoModifiers) == "/f_auto" + ",q_auto" + "/test"
    ensures Url(Plain(""), Rows.Source, Rows.Width) == "/f_auto" + ",q_auto" + ",w_200" + "/test"
    ensures Url(Plain(""), Rows.Source, Rows.Height) == "/f_auto" + ",q_auto" + ",h_200" + "/test"
    ensures Url(Plain(""), Rows.Source, Rows.Both) == "/f_auto" + ",q_auto" + ",w_200" + ",h_200" + "/test"
    ensures Url(Plain(""), Rows.Source, Rows.Contain)
      == "/f_auto" + ",q_auto" + ",w_200" + ",h_200" + ",c_scale" + "/test"
    ensures Url(Plain(""), Rows.Source, Rows.Jpeg)
      == "/f_jpeg" + ",q_auto" + ",w_200" + ",h_200" + ",c_scale" + "/test"
  {
    var fa, fj, q, w, h, c := Token("f", "auto"), Token("f", "jpeg"), Token("q", "auto"),
      Token("w", "200"), Token("h", "200"), Token("c", "scale");
    RowTransforms();
    SizedRowTransforms();
    FittedRowTransforms();
    Pieces();
    TestStem();
    UrlEmits(Plain(""), Rows.Source, NoModifiers);
    UrlEmits(Plain(""), Rows.Source, Rows.Width);
    UrlEmits(Plain(""), Rows.Source, Rows.Height);
    UrlEmits(Plain(""), Rows.Source, Rows.Both);
    UrlEmits(Plain(""), Rows.Source, Rows.Contain);
    UrlEmits(Plain(""), Rows.Source, Rows.Jpeg);
    EmitTwo("", "/", fa, q, '_', ',');
    EmitThree("", "/", fa, q, w, '_', ',');
    EmitThree("", "/", fa, q, h, '_', ',');
    EmitFour("", "/", fa, q, w, h, '_', ',');
    EmitFive("", "/", fa, q, w, h, c, '_', ',');
    EmitFive("", "/", fj, q, w, h, c, '_', ',');
  }

  /** The fetch and upload reference tests: no base, no default tokens, the source kept whole. */
  lemma RemoteReference()
    ensures Url(Fetch, FetchSource, Square) == "/w_300" + ",h_300" + ("/" + FetchSource)
    ensures Url(Upload("remote"), UploadSource, Square) == "/w_300" + ",h_300" + ("/remote/" + UploadSource)
  {
    var w, h := Token("w", "300"), Token("h", "300");
    RemoteTransforms();
    Pieces();
    UploadPath();
    UrlEmits(Fetch, FetchSource, Square);
    UrlEmits(Upload("remote"), UploadSource, Square);
    EmitTwo("", "/", w, h, '_', ',');
  }
}

=== FILE: fastly.dfy ===
/**
  The fastly adapter: flat query parameters `width`, `height`, `fit`,
  `format`, in that order, joined by `&`; fit `contain` is written `bounds`.
 */
module Fastly {
  import opened Optional
  import opened Text
  import opened Tokens
  import opened Canonical
  import QueryStyle
  import Rows

  const Fits: map<Name, Name> := map["contain" := "bounds"]

  const Grammar: QueryStyle.Dialect :=
    QueryStyle.Dialect("?", '=', '&', ["width", "height", "fit", "format"], Fits)

  lemma TranslateFit(fit: Option<Name>)
    ensures Translate(Fits, fit) == if fit == Some("contain") then Some("bounds") else fit
  {
  }

  lemma GrammarValid()
    ensures QueryStyle.Valid(Grammar)
  {
  }

  /** The image URL for `src` under `base`; without modifiers it is the source itself. */
  function Url(base: string, src: string, m: Modifiers): (url: string)
    ensures IsEmpty(m) ==> url == base + src
    ensures !IsEmpty(m) ==> base + src + "?" <= url
  {
    GrammarValid();
    QueryStyle.Encode(Grammar, base, src, m)
  }

  /**
    Each parameter is present exactly when its modifier is, with the
    modifier's value (fit renamed through the table); parameters follow the
    fixed order width, height, fit, format.
   */
  lemma QueryContents(m: Modifiers, v: string)
    ensures (Token("width", v) in QueryStyle.Params(Grammar, m))
              <==> m.width.Some? && v == NatToString(m.width.value)
    ensures (Token("height", v) in QueryStyle.Params(Grammar, m))
              <==> m.height.Some? && v == NatToString(m.height.value)
    ensures (Token("fit", v) in QueryStyle.Params(Grammar, m))
              <==> m.fit.Some? && v == (if m.fit.value == "contain" then "bounds" else m.fit.value)
    ensures Token("format", v) in QueryStyle.Params(Grammar, m) <==> m.format == Some(v)
    ensures InOrder(Grammar.keys, QueryStyle.Params(Grammar, m))
  {
    GrammarValid();
    QueryStyle.ParamContents(Grammar, m, 0, v);
    QueryStyle.ParamContents(Grammar, m, 1, v);
    QueryStyle.ParamContents(Grammar, m, 2, v);
    QueryStyle.ParamContents(Grammar, m, 3, v);
  }

  /** The URL decodes back to the address and the request, fit renamed. */
  lemma RoundTrip(base: string, src: string, m: Modifiers)
    requires '?' !in base + src
    requires m.fit.Some? ==> '&' !in m.fit.value
    requires m.format.Some? ==> '&' !in m.format.value
    ensures QueryStyle.Decode(Grammar, Url(base, src, m))
              == Some((base + src, m.(fit := Translate(Fits, m.fit))))
  {
    GrammarValid();
    TranslateFit(m.fit);
    assert QueryStyle.Clean(Grammar, m);
    QueryStyle.RoundTrip(Grammar, base, src, m);
    assert Url(base, src, m) == QueryStyle.Encode(Grammar, base, src, m);
  }

  /** The tokens of the reference rows without a fit. */
  lemma RowParams()
    ensures QueryStyle.Params(Grammar, Rows.Width) == [Token("width", "200")]
    ensures QueryStyle.Params(Grammar, Rows.Height) == [Token("height", "200")]
    ensures QueryStyle.Params(Grammar, Rows.Both) == [Token("width", "200"), Token("height", "200")]
  {
    Rows.Counts();
    QueryStyle.ParamsFields(Grammar, Rows.Width);
    QueryStyle.ParamsFields(Grammar, Rows.Height);
    QueryStyle.ParamsFields(Grammar, Rows.Both);
  }

  /** The tokens of the reference rows fitted with `contain`. */
  lemma FittedRowParams()
    ensures QueryStyle.Params(Grammar, Rows.Contain)
      == [Token("width", "200"), Token("height", "200"), Token("fit", "bounds")]
    ensures QueryStyle.Params(Grammar, Rows.Jpeg)
      == [Token("width", "200"), Token("height", "200"), Token("fit", "bounds"), Token("format", "jpeg")]
  {
    Rows.Counts();
    TranslateFit(Some("contain"));
    QueryStyle.ParamsFields(Grammar, Rows.Contain);
    QueryStyle.ParamsFields(Grammar, Rows.Jpeg);
  }

  /** Literal pieces of the reference URLs, stated apart so that the solver joins each piece once. */
  lemma Pieces()
    ensures "" + Rows.Source == "/test.png"
    ensures "?" + Show(Token("width", "200"), '=') == "?width=200"
    ensures "?" + Show(Token("height", "200"), '=') == "?height=200"
    ensures "&" + Show(Token("height", "200"), '=') == "&height=200"
    ensures "&" + Show(Token("fit", "bounds"), '=') == "&fit=bounds"
    ensures "&" + Show(Token("format", "jpeg"), '=') == "&format=jpeg"
  {
  }

  /** The reference rows (base URL empty): each URL exactly as the table gives it, written as the
    concatenation of its literal pieces so that the solver need not split one long literal. */
  lemma Reference()
    ensures Url("", Rows.Source, NoModifiers) == "/test.png"
    ensures Url("", Rows.Source, Rows.Width) == "/test.png" + "?width=200"
    ensures Url("", Rows.Source, Rows.Height) == "/test.png" + "?height=200"
    ensures Url("", Rows.Source, Rows.Both) == "/test.png" + "?width=200" + "&height=200"
    ensures Url("", Rows.Source, Rows.Contain)
      == "/test.png" + "?width=200" + "&height=200" + "&fit=bounds"
    ensures Url("", Rows.Source, Rows.Jpeg)
      == "/test.png" + "?width=200" + "&height=200" + "&fit=bounds" + "&format=jpeg"
  {
    var w, h, f, j := Token("width", "200"), Token("height", "200"), Token("fit", "bounds"), Token("format", "jpeg");
    var a := "" + Rows.Source;
    GrammarValid();
    RowParams();
    FittedRowParams();
    Pieces();
    QueryStyle.EncodeEmits(Grammar, "", Rows.Source, Rows.Width);
    QueryStyle.EncodeEmits(Grammar, "", Rows.Source, Rows.Height);
    QueryStyle.EncodeEmits(Grammar, "", Rows.Source, Rows.Both);
    QueryStyle.EncodeEmits(Grammar, "", Rows.Source, Rows.Contain);
    QueryStyle.EncodeEmits(Grammar, "", Rows.Source, Rows.Jpeg);
    EmitOne(a, "?", w, '=', '&');
    EmitOne(a, "?", h, '=', '&');
    EmitTwo(a, "?", w, h, '=', '&');
    EmitThree(a, "?", w, h, f, '=', '&');
    EmitFour(a, "?", w, h, f, j, '=', '&');
  }
}

=== FILE: imagekit.dfy ===
/**
  The imagekit adapter: one query parameter `tr` whose value lists the
  transforms `w-`, `h-`, `cm-`, `f-`, in that order, separated by commas;
  fit `contain` is written `pad_resize`.
 */
module Imagekit {
  import opened Optional
  import opened Text
  import opened Tokens
  import opened Canonical
  import QueryStyle
  import Rows

  const Fits: map<Name, Name> := map["contain" := "pad_resize"]

  const Grammar: QueryStyle.Dialect :=
    QueryStyle.Dialect("?tr=", '-', ',', ["w", "h", "cm", "f"], Fits)

  lemma TranslateFit(fit: Option<Name>)
    ensures Translate(Fits, fit) == if fit == Some("contain") then Some("pad_resize") else fit
  {
  }

  lemma GrammarValid()
    ensures QueryStyle.Valid(Grammar)
  {
  }

  /** The image URL for `src` under `base`; without modifiers it is the source itself. */
  function Url(base: string, src: string, m: Modifiers): (url: string)
    ensures IsEmpty(m) ==> url == base + src
    ensures !IsEmpty(m) ==> base + src + "?tr=" <= url
  {
    GrammarValid();
    QueryStyle.Encode(Grammar, base, src, m)
  }

  /**
    Each parameter is present exactly when its modifier is, with the
    modifier's value (fit renamed through the table); parameters follow the
    fixed order w, h, cm, f.
   */
  lemma QueryContents(m: Modifiers, v: string)
    ensures (Token("w", v) in QueryStyle.Params(Grammar, m))
              <==> m.width.Some? && v == NatToString(m.width.value)
    ensures (Token("h", v) in QueryStyle.Params(Grammar, m))
              <==> m.height.Some? && v == NatToString(m.height.value)
    ensures (Token("cm", v) in QueryStyle.Params(Grammar, m))
              <==> m.fit.Some? && v == (if m.fit.value == "contain" then "pad_resize" else m.fit.value)
    ensures Token("f", v) in QueryStyle.Params(Grammar, m) <==> m.format == Some(v)
    ensures InOrder(Grammar.keys, QueryStyle.Params(Grammar, m))
  {
    GrammarValid();
    QueryStyle.ParamContents(Grammar, m, 0, v);
    QueryStyle.ParamContents(Grammar, m, 1, v);
    QueryStyle.ParamContents(Grammar, m, 2, v);
    QueryStyle.ParamContents(Grammar, m, 3, v);
  }

  /** The URL decodes back to the address and the request, fit renamed. */
  lemma RoundTrip(base: string, src: string, m: Modifiers)
    requires '?' !in base + src
    requires m.fit.Some? ==> ',' !in m.fit.value
    requires m.format.Some? ==> ',' !in m.format.value
    ensures QueryStyle.Decode(Grammar, Url(base, src, m))
              == Some((base + src, m.(fit := Translate(Fits, m.fit))))
  {
    GrammarValid();
    TranslateFit(m.fit);
    assert QueryStyle.Clean(Grammar, m);
    QueryStyle.RoundTrip(Grammar, base, src, m);
    assert Url(base, src, m) == QueryStyle.Encode(Grammar, base, src, m);
  }

  /** The tokens of the reference rows without a fit. */
  lemma RowParams()
    ensures QueryStyle.Params(Grammar, Rows.Width) == [Token("w", "200")]
    ensures QueryStyle.Params(Grammar, Rows.Height) == [Token("h", "200")]
    ensures QueryStyle.Params(Grammar, Rows.Both) == [Token("w", "200"), Token("h", "200")]
  {
    Rows.Counts();
    QueryStyle.ParamsFields(Grammar, Rows.Width);
    QueryStyle.ParamsFields(Grammar, Rows.Height);
    QueryStyle.ParamsFields(Grammar, Rows.Both);
  }

  /** The tokens of the reference rows fitted with `contain`. */
  lemma FittedRowParams()
    ensures QueryStyle.Params(Grammar, Rows.Contain)
      == [Token("w", "200"), Token("h", "200"), Token("cm", "pad_resize")]
    ensures QueryStyle.Params(Grammar, Rows.Jpeg)
      == [Token("w", "200"), Token("h", "200"), Token("cm", "pad_resize"), Token("f", "jpeg")]
  {
    Rows.Counts();
    TranslateFit(Some("contain"));
    QueryStyle.ParamsFields(Grammar, Rows.Contain);
    QueryStyle.ParamsFields(Grammar, Rows.Jpeg);
  }

  /** Literal pieces of the reference URLs, stated apart so that the solver joins each piece once. */
  lemma Pieces()
    ensures "" + Rows.Source == "/test.png"
    ensures "?tr=" + Show(Token("w", "200"), '-') == "?tr=w-200"
    ensures "?tr=" + Show(Token("h", "200"), '-') == "?tr=h-200"
    ensures "," + Show(Token("h", "200"), '-') == ",h-200"
    ensures "," + Show(Token("cm", "pad_resize"), '-') == ",cm-pad_resize"
    ensures "," + Show(Token("f", "jpeg"), '-') == ",f-jpeg"
  {
  }

  /** The reference rows (base URL empty): each URL exactly as the table gives it, written as the
    concatenation of its literal pieces so that the solver need not split one long literal. */
  lemma Reference()
    ensures Url("", Rows.Source, NoModifiers) == "/test.png"
    ensures Url("", Rows.Source, Rows.Width) == "/test.png" + "?tr=w-200"
    ensures Url("", Rows.Source, Rows.Height) == "/test.png" + "?tr=h-200"
    ensures Url("", Rows.Source, Rows.Both) == "/test.png" + "?tr=w-200" + ",h-200"
    ensures Url("", Rows.Source, Rows.Contain)
      == "/test.png" + "?tr=w-200" + ",h-200" + ",cm-pad_resize"
    ensures Url("", Rows.Source, Rows.Jpeg)
      == "/test.png" + "?tr=w-200" + ",h-200" + ",cm-pad_resize" + ",f-jpeg"
  {
    var w, h, f, j := Token("w", "200"), Token("h", "200"), Token("cm", "pad_resize"), Token("f", "jpeg");
    var a := "" + Rows.Source;
    GrammarValid();
    RowParams();
    FittedRowParams();
    Pieces();
    QueryStyle.EncodeEmits(Grammar, "", Rows.Source, Rows.Width);
    QueryStyle.EncodeEmits(Grammar, "", Rows.Source, Rows.Height);
    QueryStyle.EncodeEmits(Grammar, "", Rows.Source, Rows.Both);
    QueryStyle.EncodeEmits(Grammar, "", Rows.Source, Rows.Contain);
    QueryStyle.EncodeEmits(Grammar, "", Rows.Source, Rows.Jpeg);
    EmitOne(a, "?tr=", w, '-', ',');
    EmitOne(a, "?tr=", h, '-', ',');
    EmitTwo(a, "?tr=", w, h, '-', ',');
    EmitThree(a, "?tr=", w, h, f, '-', ',');
    EmitFour(a, "?tr=", w, h, f, j, '-', ',');
  }
}

=== FILE: imgix.dfy ===
/**
  The imgix adapter: flat query parameters `w`, `h`, `fit`, `fm`, in that
  order, joined by `&`; fit `contain` is written `fill`.
 */
module Imgix {
  import opened Optional
  import opened Text
  import opened Tokens
  import opened Canonical
  import QueryStyle
  import Rows

  const Fits: map<Name, Name> := map["contain" := "fill"]

  const Grammar: QueryStyle.Dialect :=
    QueryStyle.Dialect("?", '=', '&', ["w", "h", "fit", "fm"], Fits)

  lemma TranslateFit(fit: Option<Name>)
    ensures Translate(Fits, fit) == if fit == Some("contain") then Some("fill") else fit
  {
  }

  lemma GrammarValid()
    ensures QueryStyle.Valid(Grammar)
  {
  }

  /** The image URL for `src` under `base`; without modifiers it is the source itself. */
  function Url(base: string, src: string, m: Modifiers): (url: string)
    ensures IsEmpty(m) ==> url == base + src
    ensures !IsEmpty(m) ==> base + src + "?" <= url
  {
    GrammarValid();
    QueryStyle.Encode(Grammar, base, src, m)
  }

  /**
    Each parameter is present exactly when its modifier is, with the
    modifier's value (fit renamed through the table); parameters follow the
    fixed order w, h, fit, fm.
   */
  lemma QueryContents(m: Modifiers, v: string)
    ensures (Token("w", v) in QueryStyle.Params(Grammar, m))
              <==> m.width.Some? && v == NatToString(m.width.value)
    ensures (Token("h", v) in QueryStyle.Params(Grammar, m))
              <==> m.height.Some? && v == NatToString(m.height.value)
    ensures (Token("fit", v) in QueryStyle.Params(Grammar, m))
              <==> m.fit.Some? && v == (if m.fit.value == "contain" then "fill" else m.fit.value)
    ensures Token("fm", v) in QueryStyle.Params(Grammar, m) <==> m.format == Some(v)
    ensures InOrder(Grammar.keys, QueryStyle.Params(Grammar, m))
  {
    GrammarValid();
    QueryStyle.ParamContents(Grammar, m, 0, v);
    QueryStyle.ParamContents(Grammar, m, 1, v);
    QueryStyle.ParamContents(Grammar, m, 2, v);
    QueryStyle.ParamContents(Grammar, m, 3, v);
  }

  /** The URL decodes back to the address and the request, fit renamed. */
  lemma RoundTrip(base: string, src: string, m: Modifiers)
    requires '?' !in base + src
    requires m.fit.Some? ==> '&' !in m.fit.value
    requires m.format.Some? ==> '&' !in m.format.value
    ensures QueryStyle.Decode(Grammar, Url(base, src, m))
              == Some((base + src, m.(fit := Translate(Fits, m.fit))))
  {
    GrammarValid();
    TranslateFit(m.fit);
    assert QueryStyle.Clean(Grammar, m);
    QueryStyle.RoundTrip(Grammar, base, src, m);
    assert Url(base, src, m) == QueryStyle.Encode(Grammar, base, src, m);
  }

  /** The tokens of the reference rows without a fit. */
  lemma RowParams()
    ensures QueryStyle.Params(Grammar, Rows.Width) == [Token("w", "200")]
    ensures QueryStyle.Params(Grammar, Rows.Height) == [Token("h", "200")]
    ensures QueryStyle.Params(Grammar, Rows.Both) == [Token("w", "200"), Token("h", "200")]
  {
    Rows.Counts();
    QueryStyle.ParamsFields(Grammar, Rows.Width);
    QueryStyle.ParamsFields(Grammar, Rows.Height);
    QueryStyle.ParamsFields(Grammar, Rows.Both);
  }

  /** The tokens of the reference rows fitted with `contain`. */
  lemma FittedRowParams()
    ensures QueryStyle.Params(Grammar, Rows.Contain)
      == [Token("w", "200"), Token("h", "200"), Token("fit", "fill")]
    ensures QueryStyle.Params(Grammar, Rows.Jpeg)
      == [Token("w", "200"), Token("h", "200"), Token("fit", "fill"), Token("fm", "jpeg")]
  {
    Rows.Counts();
    TranslateFit(Some("contain"));
    QueryStyle.ParamsFields(Grammar, Rows.Contain);
    QueryStyle.ParamsFields(Grammar, Rows.Jpeg);
  }

  /** Literal pieces of the reference URLs, stated apart so that the solver joins each piece once. */
  lemma Pieces()
    ensures "" + Rows.Source == "/test.png"
    ensures "?" + Show(Token("w", "200"), '=') == "?w=200"
    ensures "?" + Show(Token("h", "200"), '=') == "?h=200"
    ensures "&" + Show(Token("h", "200"), '=') == "&h=200"
    ensures "&" + Show(Token("fit", "fill"), '=') == "&fit=fill"
    ensures "&" + Show(Token("fm", "jpeg"), '=') == "&fm=jpeg"
  {
  }

  /** The reference rows (base URL empty): each URL exactly as the table gives it, written as the
    concatenation of its literal pieces so that the solver need not split one long literal. */
  lemma Reference()
    ensures Url("", Rows.Source, NoModifiers) == "/test.png"
    ensures Url("", Rows.Source, Rows.Width) == "/test.png" + "?w=200"
    ensures Url("", Rows.Source, Rows.Height) == "/test.png" + "?h=200"
    ensures Url("", Rows.Source, Rows.Both) == "/test.png" + "?w=200" + "&h=200"
    ensures Url("", Rows.Source, Rows.Contain)
      == "/test.png" + "?w=200" + "&h=200" + "&fit=fill"
    ensures Url("", Rows.Source, Rows.Jpeg)
      == "/test.png" + "?w=200" + "&h=200" + "&fit=fill" + "&fm=jpeg"
  {
    var w, h, f, j := Token("w", "200"), Token("h", "200"), Token("fit", "fill"), Token("fm", "jpeg");
    var a := "" + Rows.Source;
    GrammarValid();
    RowParams();
    FittedRowParams();
    Pieces();
    QueryStyle.EncodeEmits(Grammar, "", Rows.Source, Rows.Width);
    QueryStyle.EncodeEmits(Grammar, "", Rows.Source, Rows.Height);
    QueryStyle.EncodeEmits(Grammar, "", Rows.Source, Rows.Both);
    QueryStyle.EncodeEmits(Grammar, "", Rows.Source, Rows.Contain);
    QueryStyle.EncodeEmits(Grammar, "", Rows.Source, Rows.Jpeg);
    EmitOne(a, "?", w, '=', '&');
    EmitOne(a, "?", h, '=', '&');
    EmitTwo(a, "?", w, h, '=', '&');
    EmitThree(a, "?", w, h, f, '=', '&');
    EmitFour(a, "?", w, h, f, j, '=', '&');
  }
}

=== FILE: ipx.dfy ===
/**
  The local adapter: instead of a vendor URL it addresses the site's own
  image proxy, `/_image/local/remote/<format>/<size>/<source>`, where
  `<format>` is the asked format or `_`, `<size>` is `_`, `w_W`, `h_H`,
  `s_W_H` or `f_<fit>,s_W_H`, and `<source>` is the source resolved against
  the site origin and percent-encoded whole. Whether the source is a static
  asset is decided outside and passed through.
 */
module Ipx {
  import opened Optional
  import opened Text
  import opened Canonical
  import Percent
  import Utf8
  import Rows

  const Prefix: string := "/_image/local/remote/"

  /** What the adapter hands back: the URL and the static-asset flag. */
  datatype Image = Image(url: string, isStatic: bool)

  predicate IsAbsolute(src: string) {
    "http://" <= src || "https://" <= src || "//" <= src
  }

  /** The absolute address of `src` on a site served from `origin`. */
  function Resolve(origin: string, src: string): (r: string)
    ensures IsAbsolute(src) ==> r == src
    ensures !IsAbsolute(src) ==> origin <= r && |r| > |origin| && r[|origin|] == '/'
    ensures !IsAbsolute(src) ==> r[|origin| + 1..] == if |src| > 0 && src[0] == '/' then src[1..] else src
  {
    if IsAbsolute(src) then src
    else if |src| > 0 && src[0] == '/' then origin + src
    else origin + "/" + src
  }

  /** Resolving against an absolute origin gives an absolute address, which a second resolution keeps. */
  lemma ResolveIdempotent(origin: string, src: string)
    requires "http://" <= origin || "https://" <= origin
    ensures IsAbsolute(Resolve(origin, src))
    ensures Resolve(origin, Resolve(origin, src)) == Resolve(origin, src)
  {
    var r := Resolve(origin, src);
    if !IsAbsolute(src) {
      if "http://" <= origin {
        assert r[..7] == origin[..7];
      } else {
        assert r[..8] == origin[..8];
      }
    }
  }

  /** The format segment. */
  function FormatSegment(m: Modifiers): Name {
    m.format.GetOr("_")
  }

  /** The size segment: the fit is written only together with both dimensions. */
  function SizeSegment(m: Modifiers): (s: string)
    ensures |s| > 0
  {
    match (m.width, m.height)
    case (Some(w), Some(h)) =>
      var both := "s_" + NatToString(w) + "_" + NatToString(h);
      if m.fit.Some? then "f_" + m.fit.value + "," + both else both
    case (Some(w), None) => "w_" + NatToString(w)
    case (None, Some(h)) => "h_" + NatToString(h)
    case (None, None) => "_"
  }

  /**
    Which size token the proxy path carries: `_` for no dimension, `w_` or `h_`
    for one, `s_` for both, and `f_` in front of `s_` when a fit comes with
    both; a clean format segment is `_` exactly when no format is asked.
   */
  lemma SizeContents(m: Modifiers)
    ensures SizeSegment(m) == "_" <==> m.width.None? && m.height.None?
    ensures "w_" <= SizeSegment(m) <==> m.width.Some? && m.height.None?
    ensures "h_" <= SizeSegment(m) <==> m.width.None? && m.height.Some?
    ensures "s_" <= SizeSegment(m) <==> m.width.Some? && m.height.Some? && m.fit.None?
    ensures "f_" <= SizeSegment(m) <==> m.width.Some? && m.height.Some? && m.fit.Some?
    ensures Clean(m) ==> (FormatSegment(m) == "_" <==> m.format.None?)
  {
    var s := SizeSegment(m);
    match (m.width, m.height)
    case (Some(w), Some(h)) =>
      if m.fit.Some? {
        assert s[0] == 'f' && s[1] == '_';
      } else {
        assert s[0] == 's' && s[1] == '_';
      }
    case (Some(w), None) =>
      assert s[0] == 'w' && s[1] == '_';
    case (None, Some(h)) =>
      assert s[0] == 'h' && s[1] == '_';
    case (None, None) =>
  }

  /** The proxy URL for `src` on a site served from `origin`. */
  function Url(origin: string, src: string, m: Modifiers): (url: string)
    ensures Prefix <= url
  {
    Prefix + FormatSegment(m) + "/" + SizeSegment(m) + "/" + Percent.Encode(Resolve(origin, src))
  }

  /** The adapter's answer; `isStatic` is the caller's static-asset verdict on `src`. */
  function GetImage(origin: string, src: string, m: Modifiers, isStatic: bool): (r: Image)
    ensures r.isStatic == isStatic
    ensures Prefix <= r.url
    ensures Clean(m) ==> Decode(r.url) == Some((View(m), Resolve(origin, src)))
  {
    if Clean(m) then
      RoundTrip(origin, src, m);
      Image(Url(origin, src, m), isStatic)
    else Image(Url(origin, src, m), isStatic)
  }

  /** The request as the proxy records it: without both dimensions the fit is dropped. */
  function View(m: Modifiers): Modifiers {
    if m.width.Some? && m.height.Some? then m else m.(fit := None)
  }

  /** Reads `W_H` back. */
  function ReadPair(s: string): Option<(Pixels, Pixels)> {
    match SplitFirst(s, '_')
    case None => None
    case Some((w, h)) =>
      match (ReadPixels(Some(w)), ReadPixels(Some(h)))
      case (Some(Some(pw)), Some(Some(ph))) => Some((pw, ph))
      case _ => None
  }

  /** Reads a size segment back into width, height and fit. */
  function ReadSize(s: string): Option<(Option<Pixels>, Option<Pixels>, Option<Name>)> {
    if s == "_" then Some((None, None, None))
    else
      match SplitFirst(s, ',')
      case Some((f, both)) =>
        if "f_" <= f && |f| > 2 && "s_" <= both then
          var fit: Name := f[2..];
          match ReadPair(both[2..])
          case None => None
          case Some((w, h)) => Some((Some(w), Some(h), Some(fit)))
        else None
      case None =>
        if "s_" <= s then
          match ReadPair(s[2..])
          case None => None
          case Some((w, h)) => Some((Some(w), Some(h), None))
        else if "w_" <= s then
          match ReadPixels(Some(s[2..]))
          case Some(Some(w)) => Some((Some(w), None, None))
          case _ => None
        else if "h_" <= s then
          match ReadPixels(Some(s[2..]))
          case Some(Some(h)) => Some((None, Some(h), None))
          case _ => None
        else None
  }

  /** Reads a proxy URL back into the request and the absolute source. */
  function Decode(url: string): Option<(Modifiers, string)> {
    if Prefix <= url then
      var parts := Split(url[|Prefix|..], '/');
      if |parts| == 3 && |parts[0]| > 0 then
        var format: Option<Name> := if parts[0] == "_" then None else var f: Name := parts[0]; Some(f);
        match (ReadSize(parts[1]), Percent.Decode(parts[2]))
        case (Some((w, h, fit)), Some(source)) => Some((Modifiers(w, h, fit, format), source))
        case _ => None
      else None
    else None
  }

  /** The fit and format words keep clear of the characters that separate segments and fields. */
  predicate Clean(m: Modifiers) {
    && (m.format.Some? ==> '/' !in m.format.value && m.format.value != "_")
    && (m.fit.Some? ==> '/' !in m.fit.value && ',' !in m.fit.value)
  }

  lemma DigitsFree(s: string, c: char)
    requires AllDigits(s) && !IsDigit(c)
    ensures c !in s
  {
  }

  lemma ReadPairShow(w: Pixels, h: Pixels)
    ensures ReadPair(NatToString(w) + "_" + NatToString(h)) == Some((w, h))
  {
    DigitsFree(NatToString(w), '_');
    SplitFirstJoin(NatToString(w), '_', NatToString(h));
    ReadShowPixels(Some(w));
    ReadShowPixels(Some(h));
  }

  lemma ReadSizeBoth(w: Pixels, h: Pixels)
    ensures ReadSize(SizeSegment(Modifiers(Some(w), Some(h), None, None))) == Some((Some(w), Some(h), None))
  {
    var pair := NatToString(w) + "_" + NatToString(h);
    var both := "s_" + pair;
    assert SizeSegment(Modifiers(Some(w), Some(h), None, None)) == both;
    assert both[2..] == pair;
    ReadPairShow(w, h);
    DigitsFree(NatToString(w), ',');
    DigitsFree(NatToString(h), ',');
    assert ',' !in both;
    assert SplitFirst(both, ',') == None;
    assert both != "_" by {
      assert both[0] == 's';
    }
    assert "s_" <= both;
  }

  lemma ReadSizeFitted(w: Pixels, h: Pixels, f: Name)
    requires ',' !in f
    ensures ReadSize(SizeSegment(Modifiers(Some(w), Some(h), Some(f), None))) == Some((Some(w), Some(h), Some(f)))
  {
    var pair := NatToString(w) + "_" + NatToString(h);
    var both := "s_" + pair;
    var head := "f_" + f;
    var s := SizeSegment(Modifiers(Some(w), Some(h), Some(f), None));
    assert s == head + [','] + both;
    assert s != "_" by {
      assert s[0] == 'f';
    }
    SplitFirstJoin(head, ',', both);
    assert head[2..] == f;
    assert both[2..] == pair;
    ReadPairShow(w, h);
  }

  lemma ReadSizeOne(n: Pixels, wide: bool)
    ensures ReadSize(SizeSegment(Modifiers(if wide then Some(n) else None, if wide then None else Some(n), None, None)))
      == Some((if wide then Some(n) else None, if wide then None else Some(n), None))
  {
    var t := NatToString(n);
    var s := (if wide then "w_" else "h_") + t;
    assert s[2..] == t;
    DigitsFree(t, ',');
    assert ',' !in s;
    ReadShowPixels(Some(n));
  }

  /** The size segment reads back as the dimensions and the fit the proxy keeps. */
  lemma ReadSizeSize(m: Modifiers)
    requires Clean(m)
    ensures ReadSize(SizeSegment(m)) == Some((m.width, m.height, View(m).fit))
  {
    match (m.width, m.height)
    case (Some(w), Some(h)) =>
      if m.fit.Some? {
        ReadSizeFitted(w, h, m.fit.value);
      } else {
        ReadSizeBoth(w, h);
      }
      assert SizeSegment(m) == SizeSegment(Modifiers(Some(w), Some(h), m.fit, None));
    case (Some(w), None) =>
      ReadSizeOne(w, true);
      assert SizeSegment(m) == SizeSegment(Modifiers(Some(w), None, None, None));
    case (None, Some(h)) =>
      ReadSizeOne(h, false);
      assert SizeSegment(m) == SizeSegment(Modifiers(None, Some(h), None, None));
    case (None, None) =>
  }

  /** No segment of the URL contains a slash. */
  lemma SegmentsFree(origin: string, src: string, m: Modifiers)
    requires Clean(m)
    ensures '/' !in FormatSegment(m)
    ensures '/' !in SizeSegment(m)
    ensures '/' !in Percent.Encode(Resolve(origin, src))
  {
    var e := Percent.Encode(Resolve(origin, src));
    Percent.EncodeAlphabet(Resolve(origin, src));
    assert forall i :: 0 <= i < |e| ==> e[i] != '/';
    match (m.width, m.height)
    case (Some(w), Some(h)) =>
      DigitsFree(NatToString(w), '/');
      DigitsFree(NatToString(h), '/');
    case (Some(w), None) =>
      DigitsFree(NatToString(w), '/');
    case (None, Some(h)) =>
      DigitsFree(NatToString(h), '/');
    case (None, None) =>
  }

  /**
    Reading the proxy URL back gives the proxy's view of the request and the
    absolute address of the source: the format, each dimension and (with both
    dimensions) the fit survive, and the source survives its percent-encoding.
   */
  lemma RoundTrip(origin: string, src: string, m: Modifiers)
    requires Clean(m)
    ensures Decode(Url(origin, src, m)) == Some((View(m), Resolve(origin, src)))
  {
    UrlSegments(origin, src, m);
    ReadSizeSize(m);
    Percent.RoundTrip(Resolve(origin, src));
  }

  /** Past the fixed prefix, the URL splits at its slashes into exactly its three segments. */
  lemma UrlSegments(origin: string, src: string, m: Modifiers)
    requires Clean(m)
    ensures var url := Url(origin, src, m);
      Split(url[|Prefix|..], '/') == [FormatSegment(m), SizeSegment(m), Percent.Encode(Resolve(origin, src))]
  {
    var f, s, e := FormatSegment(m), SizeSegment(m), Percent.Encode(Resolve(origin, src));
    assert Url(origin, src, m)[|Prefix|..] == f + ['/'] + (s + ['/'] + e);
    assert Join([s, e], '/') == s + ['/'] + e;
    assert Join([f, s, e], '/') == f + ['/'] + Join([s, e], '/');
    SegmentsFree(origin, src, m);
    SplitJoin([f, s, e], '/');
  }

  /** No two slashes stand next to each other. */
  predicate NoDoubleSlash(s: string) {
    forall i :: 0 <= i < |s| - 1 ==> !(s[i] == '/' && s[i + 1] == '/')
  }

  /**
    The callers' slash clean-up: every `://` is kept as it is, and every other
    run of slashes collapses into one slash; other characters are kept in order.
   */
  function CleanDoubleSlashes(s: string): (r: string)
    ensures |r| <= |s|
    ensures |s| > 0 ==> |r| > 0 && r[0] == s[0]
    ensures ':' !in s ==> NoDoubleSlash(r)
    decreases |s|
  {
    if |s| < 2 then s
    else if s[0] == '/' && s[1] == '/' then CleanDoubleSlashes(s[1..])
    else if |s| >= 3 && s[0] == ':' && s[1] == '/' && s[2] == '/' then "://" + CleanDoubleSlashes(s[3..])
    else
      var rest := CleanDoubleSlashes(s[1..]);
      assert ':' !in s ==> ':' !in s[1..];
      assert forall i :: 1 <= i < |rest| ==> ([s[0]] + rest)[i] == rest[i - 1];
      [s[0]] + rest
  }

  /**
    Text without a double slash is left as it is; for text without a scheme
    separator `:` that is also the only text left as it is.
   */
  lemma {:induction false} CleanDoubleSlashesNoop(s: string)
    ensures NoDoubleSlash(s) ==> CleanDoubleSlashes(s) == s
    ensures ':' !in s ==> (CleanDoubleSlashes(s) == s <==> NoDoubleSlash(s))
    decreases |s|
  {
    if |s| >= 2 {
      if s[0] == '/' && s[1] == '/' {
        assert |CleanDoubleSlashes(s)| <= |s[1..]|;
      } else if |s| >= 3 && s[0] == ':' && s[1] == '/' && s[2] == '/' {
        assert !NoDoubleSlash(s) by {
          assert s[1] == '/' && s[2] == '/';
        }
      } else {
        CleanDoubleSlashesNoop(s[1..]);
        assert ':' !in s ==> ':' !in s[1..];
        NoDoubleTail(s);
        CleanTailSame(s);
      }
    }
  }

  /** Past a first pair that is not `//`, a double slash can only stand in the tail. */
  lemma NoDoubleTail(s: string)
    requires |s| >= 2 && !(s[0] == '/' && s[1] == '/')
    ensures NoDoubleSlash(s) <==> NoDoubleSlash(s[1..])
  {
    if NoDoubleSlash(s[1..]) {
      forall i | 0 <= i < |s| - 1
        ensures !(s[i] == '/' && s[i + 1] == '/')
      {
        if i > 0 {
          assert s[i] == s[1..][i - 1] && s[i + 1] == s[1..][i];
        }
      }
    }
    if NoDoubleSlash(s) {
      forall i | 0 <= i < |s[1..]| - 1
        ensures !(s[1..][i] == '/' && s[1..][i + 1] == '/')
      {
        assert s[1..][i] == s[i + 1] && s[1..][i + 1] == s[i + 2];
      }
    }
  }

  /** When the first character is copied, the clean-up keeps the text exactly when it keeps the tail. */
  lemma CleanTailSame(s: string)
    requires |s| >= 2 && !(s[0] == '/' && s[1] == '/')
    requires !(|s| >= 3 && s[0] == ':' && s[1] == '/' && s[2] == '/')
    ensures CleanDoubleSlashes(s) == s <==> CleanDoubleSlashes(s[1..]) == s[1..]
  {
    assert s == [s[0]] + s[1..];
    if CleanDoubleSlashes(s) == s {
      assert CleanDoubleSlashes(s[1..]) == CleanDoubleSlashes(s)[1..];
    }
  }

  /** A character other than `/` and `:` passes through the clean-up unchanged. */
  lemma CleanStep(c: char, rest: string)
    requires c != '/' && c != ':'
    ensures CleanDoubleSlashes([c] + rest) == [c] + CleanDoubleSlashes(rest)
  {
    var s := [c] + rest;
    assert s[1..] == rest;
    if rest == [] {
      assert s == [c];
    }
  }

  lemma HeadTail(a: string, b: string)
    requires a != []
    ensures a + b == [a[0]] + (a[1..] + b)
  {
    assert a == [a[0]] + a[1..];
  }

  /** Characters other than `/` and `:` pass through the clean-up one by one. */
  lemma {:induction false} CleanPlainText(a: string, rest: string)
    requires '/' !in a && ':' !in a
    ensures CleanDoubleSlashes(a + rest) == a + CleanDoubleSlashes(rest)
    decreases |a|
  {
    if a == [] {
      assert a + rest == rest;
    } else {
      CleanPlainText(a[1..], rest);
      CleanStep(a[0], a[1..] + rest);
      HeadTail(a, rest);
      HeadTail(a, CleanDoubleSlashes(rest));
    }
  }

  /** A scheme's `://` survives the clean-up; only what follows it is cleaned. */
  lemma CleanKeepsScheme(scheme: string, rest: string)
    requires '/' !in scheme && ':' !in scheme
    ensures CleanDoubleSlashes(scheme + "://" + rest) == scheme + "://" + CleanDoubleSlashes(rest)
  {
    Regroup(scheme, "://", rest);
    Regroup(scheme, "://", CleanDoubleSlashes(rest));
    CleanPlainText(scheme, "://" + rest);
    CleanSeparator(rest);
  }

  lemma Regroup(a: string, m: string, s: string)
    ensures a + m + s == a + (m + s)
  {
  }

  lemma CleanSeparator(rest: string)
    ensures CleanDoubleSlashes("://" + rest) == "://" + CleanDoubleSlashes(rest)
  {
    var s := "://" + rest;
    assert s[0] == ':' && s[1] == '/' && s[2] == '/' && s[3..] == rest;
  }

  /** After a slash, the clean-up drops a second slash and keeps anything else. */
  lemma CleanAfterSlash(x: string)
    requires x != []
    ensures CleanDoubleSlashes("/" + x) == if x[0] == '/' then CleanDoubleSlashes(x) else "/" + CleanDoubleSlashes(x)
  {
    assert ("/" + x)[1..] == x;
  }

  lemma HeadMiddleTail(a: string, m: string, s: string)
    requires a != []
    ensures a + m + s == [a[0]] + (a[1..] + m + s)
  {
    assert a == [a[0]] + a[1..];
  }

  /**
    Wherever it stands after text without a scheme separator, a double slash
    cleans as a single slash.
   */
  lemma {:induction false} CleanCollapses(a: string, s: string)
    requires ':' !in a
    ensures CleanDoubleSlashes(a + "//" + s) == CleanDoubleSlashes(a + "/" + s)
    decreases |a|
  {
    if a == [] {
      assert a + "//" + s == "/" + ("/" + s);
      assert a + "/" + s == "/" + s;
      CleanAfterSlash("/" + s);
    } else {
      CleanCollapses(a[1..], s);
      var x, y := a[1..] + "//" + s, a[1..] + "/" + s;
      HeadMiddleTail(a, "//", s);
      HeadMiddleTail(a, "/", s);
      if a[0] == '/' {
        assert x[0] == y[0] by {
          if a[1..] != [] {
            assert x[0] == a[1] && y[0] == a[1];
          }
        }
        CleanAfterSlash(x);
        CleanAfterSlash(y);
      } else {
        CleanStep(a[0], x);
        CleanStep(a[0], y);
      }
    }
  }

  /** Text made of slash-free runs joined by single slashes has no double slash. */
  lemma GlueNoDouble(a: string, b: string)
    requires NoDoubleSlash(a) && NoDoubleSlash(b)
    requires |a| > 0 && |b| > 0 ==> !(a[|a| - 1] == '/' && b[0] == '/')
    ensures NoDoubleSlash(a + b)
  {
    var s := a + b;
    forall i | 0 <= i < |s| - 1
      ensures !(s[i] == '/' && s[i + 1] == '/')
    {
      if i + 1 < |a| {
        assert s[i] == a[i] && s[i + 1] == a[i + 1];
      } else if i >= |a| {
        assert s[i] == b[i - |a|] && s[i + 1] == b[i + 1 - |a|];
      }
    }
  }

  lemma SlashFree(s: string)
    requires '/' !in s
    ensures NoDoubleSlash(s)
  {
    assert forall i :: 0 <= i < |s| ==> s[i] != '/';
  }

  lemma PrefixTidy()
    ensures NoDoubleSlash(Prefix)
  {
    SlashFree("_image");
    GlueNoDouble("/", "_image");
    GlueNoDouble("/_image", "/");
    SlashFree("local");
    GlueNoDouble("/_image/", "local");
    GlueNoDouble("/_image/local", "/");
    SlashFree("remote");
    GlueNoDouble("/_image/local/", "remote");
    GlueNoDouble("/_image/local/remote", "/");
    assert "/_image/local/remote" + "/" == Prefix;
  }

  /**
    The URL never holds a double slash, so the slash-collapsing clean-up the
    callers apply leaves it as it is.
   */
  lemma UrlTidy(origin: string, src: string, m: Modifiers)
    requires Clean(m)
    ensures NoDoubleSlash(Url(origin, src, m))
    ensures CleanDoubleSlashes(Url(origin, src, m)) == Url(origin, src, m)
  {
    var f, s, e := FormatSegment(m), SizeSegment(m), Percent.Encode(Resolve(origin, src));
    SegmentsFree(origin, src, m);
    PrefixTidy();
    SlashFree(f);
    SlashFree(s);
    SlashFree(e);
    GlueNoDouble(Prefix, f);
    GlueNoDouble(Prefix + f, "/");
    GlueNoDouble(Prefix + f + "/", s);
    GlueNoDouble(Prefix + f + "/" + s, "/");
    GlueNoDouble(Prefix + f + "/" + s + "/", e);
    CleanDoubleSlashesNoop(Url(origin, src, m));
  }

  /** The origin of the development server the reference table assumes. */
  const Origin: string := "http://localhost:3000"

  /** The reference source as the proxy receives it, percent-encoded. */
  const EncodedSource: string := "http%3A%2F%2Flocalhost%3A3000%2Ftest.png"

  lemma NotAbsolute(s: string)
    requires |s| >= 2 && s[0] == '/' && s[1] != '/'
    ensures !IsAbsolute(s)
  {
    assert "http://"[0] != s[0] && "https://"[0] != s[0];
    assert "//"[1] != s[1];
  }

  /** Literal pieces of the reference URLs, stated apart so that the solver joins each piece once. */
  lemma OriginSource()
    ensures Origin + Rows.Source == "http" + ":" + "//" + "localhost" + ":" + "3000" + "/" + "test.png"
  {
  }

  /** The resolved reference source, in the literal pieces the encoding proofs take one by one. */
  lemma SourceChunks()
    ensures Resolve(Origin, Rows.Source)
      == "http" + ":" + "//" + "localhost" + ":" + "3000" + "/" + "test.png"
  {
    var s := Rows.Source;
    assert s[0] == '/' && s[1] == 't';
    NotAbsolute(s);
    OriginSource();
  }

  lemma EncodeEight(a: string, b: string, c: string, d: string, e: string, f: string, g: string, h: string)
    ensures Percent.Encode(a + b + c + d + e + f + g + h)
      == Percent.Encode(a) + Percent.Encode(b) + Percent.Encode(c) + Percent.Encode(d)
       + Percent.Encode(e) + Percent.Encode(f) + Percent.Encode(g) + Percent.Encode(h)
  {
    Percent.EncodeAppend(a + b + c + d + e + f + g, h);
    Percent.EncodeAppend(a + b + c + d + e + f, g);
    Percent.EncodeAppend(a + b + c + d + e, f);
    Percent.EncodeAppend(a + b + c + d, e);
    Percent.EncodeAppend(a + b + c, d);
    Percent.EncodeAppend(a + b, c);
    Percent.EncodeAppend(a, b);
  }

  lemma Escapes()
    ensures Percent.Encode(":") == "%3A"
    ensures Percent.Encode("/") == "%2F"
  {
    assert Utf8.Encode(":") == [58];
    assert Utf8.Encode("/") == [47];
  }

  /** A text of unreserved characters, which percent-encoding leaves as it is. */
  predicate Unreserved(s: string) {
    forall i :: 0 <= i < |s| ==> Percent.IsUnreservedChar(s[i])
  }

  lemma ChunksUnreserved()
    ensures Unreserved("http") && Unreserved("localhost") && Unreserved("3000") && Unreserved("test.png")
  {
  }

  lemma EncodeUnreservedChunk(s: string)
    requires Unreserved(s)
    ensures Percent.Encode(s) == s
  {
    Percent.EncodeUnreservedText(s);
  }

  lemma UnreservedChunks()
    ensures Percent.Encode("http") == "http"
    ensures Percent.Encode("localhost") == "localhost"
    ensures Percent.Encode("3000") == "3000"
    ensures Percent.Encode("test.png") == "test.png"
  {
    ChunksUnreserved();
    EncodeUnreservedChunk("http");
    EncodeUnreservedChunk("localhost");
    EncodeUnreservedChunk("3000");
    EncodeUnreservedChunk("test.png");
  }

  /** Literal pieces of the reference URLs, stated apart so that the solver joins each piece once. */
  lemma SlashesCode()
    ensures Percent.Encode("//") == "%2F%2F"
  {
    Escapes();
    Percent.EncodeAppend("/", "/");
    assert "/" + "/" == "//";
  }

  /** Literal pieces of the reference URLs, stated apart so that the solver joins each piece once. */
  lemma EncodedJoin()
    ensures "http" + "%3A" + "%2F%2F" + "localhost" + "%3A" + "3000" + "%2F" + "test.png" == EncodedSource
  {
  }

  /** The reference source resolves against the origin and encodes as the table shows. */
  lemma SourceEncoding()
    ensures Percent.Encode(Resolve(Origin, Rows.Source)) == EncodedSource
  {
    SourceChunks();
    EncodeEight("http", ":", "//", "localhost", ":", "3000", "/", "test.png");
    UnreservedChunks();
    SlashesCode();
    Escapes();
    EncodedJoin();
  }

  /** Literal pieces of the reference URLs, stated apart so that the solver joins each piece once. */
  lemma Pieces()
    ensures SizeSegment(NoModifiers) == "_"
    ensures SizeSegment(Rows.Width) == "w_200"
    ensures SizeSegment(Rows.Height) == "h_200"
    ensures SizeSegment(Rows.Both) == "s_200_200"
    ensures SizeSegment(Rows.Contain) == "f_contain,s_200_200"
    ensures SizeSegment(Rows.Jpeg) == "f_contain,s_200_200"
    ensures FormatSegment(Rows.Jpeg) == "jpeg"
  {
    Rows.Counts();
  }

  lemma ContainClean()
    ensures '/' !in "contain" && ',' !in "contain"
  {
    var s := "contain";
    assert forall i :: 0 <= i < |s| ==> 'a' <= s[i] <= 'z';
  }

  lemma JpegClean()
    ensures '/' !in "jpeg" && "jpeg" != "_"
  {
    var s := "jpeg";
    assert forall i :: 0 <= i < |s| ==> 'a' <= s[i] <= 'z';
  }

  lemma RowsClean()
    ensures Clean(NoModifiers) && Clean(Rows.Width) && Clean(Rows.Height) && Clean(Rows.Both)
    ensures Clean(Rows.Contain) && Clean(Rows.Jpeg)
  {
    ContainClean();
    JpegClean();
  }

  /** One reference row, from its three segments. */
  lemma Row(origin: string, src: string, m: Modifiers, fmt: string, size: string, enc: string)
    requires Clean(m)
    requires FormatSegment(m) == fmt && SizeSegment(m) == size && Percent.Encode(Resolve(origin, src)) == enc
    ensures GetImage(origin, src, m, true).isStatic
    ensures CleanDoubleSlashes(GetImage(origin, src, m, true).url) == Prefix + fmt + "/" + size + "/" + enc
  {
    UrlTidy(origin, src, m);
  }

  /**
    The reference rows, after the callers' slash clean-up: the URL exactly as
    the table gives it, and the static-asset verdict passed through. Each URL
    is written as the concatenation of its literal pieces so that the solver
    need not split one long literal.
   */
  lemma Reference()
    ensures var r := GetImage(Origin, Rows.Source, NoModifiers, true);
      r.isStatic && CleanDoubleSlashes(r.url) == "/_image/local/remote/" + "_" + "/" + "_" + "/" + EncodedSource
    ensures var r := GetImage(Origin, Rows.Source, Rows.Width, true);
      r.isStatic && CleanDoubleSlashes(r.url) == "/_image/local/remote/" + "_" + "/" + "w_200" + "/" + EncodedSource
    ensures var r := GetImage(Origin, Rows.Source, Rows.Height, true);
      r.isStatic && CleanDoubleSlashes(r.url) == "/_image/local/remote/" + "_" + "/" + "h_200" + "/" + EncodedSource
    ensures var r := GetImage(Origin, Rows.Source, Rows.Both, true);
      r.isStatic && CleanDoubleSlashes(r.url) == "/_image/local/remote/" + "_" + "/" + "s_200_200" + "/" + EncodedSource
    ensures var r := GetImage(Origin, Rows.Source, Rows.Contain, true);
      r.isStatic && CleanDoubleSlashes(r.url)
        == "/_image/local/remote/" + "_" + "/" + "f_contain,s_200_200" + "/" + EncodedSource
    ensures var r := GetImage(Origin, Rows.Source, Rows.Jpeg, true);
      r.isStatic && CleanDoubleSlashes(r.url)
        == "/_image/local/remote/" + "jpeg" + "/" + "f_contain,s_200_200" + "/" + EncodedSource
  {
    SourceEncoding();
    Pieces();
    RowsClean();
    Row(Origin, Rows.Source, NoModifiers, "_", "_", EncodedSource);
    Row(Origin, Rows.Source, Rows.Width, "_", "w_200", EncodedSource);
    Row(Origin, Rows.Source, Rows.Height, "_", "h_200", EncodedSource);
    Row(Origin, Rows.Source, Rows.Both, "_", "s_200_200", EncodedSource);
    Row(Origin, Rows.Source, Rows.Contain, "_", "f_contain,s_200_200", EncodedSource);
    Row(Origin, Rows.Source, Rows.Jpeg, "jpeg", "f_contain,s_200_200", EncodedSource);
  }
}

=== FILE: modifiers.dfy ===
/**
  The canonical, provider-independent description of a transform request:
  optional width and height in pixels, optional fit mode, optional output
  format. Absence of a field means "no constraint"; there is no sentinel
  zero and no empty string.
 */
module Canonical {
  import opened Optional
  import opened Text

  /** A requested dimension: a positive whole number of pixels. */
  type Pixels = n: nat | n >= 1 witness 1

  /** A fit mode or format word; an empty word is the same as none at all. */
  type Name = s: string | |s| > 0 witness "cover"

  datatype Modifiers = Modifiers(
    width: Option<Pixels>,
    height: Option<Pixels>,
    fit: Option<Name>,
    format: Option<Name>)

  const NoModifiers: Modifiers := Modifiers(None, None, None, None)

  predicate IsEmpty(m: Modifiers) {
    m.width.None? && m.height.None? && m.fit.None? && m.format.None?
  }

  /**
    A vendor's fit vocabulary: the canonical fit words it renames, as a
    table. Words the table does not mention pass through verbatim.
   */
  function Translate(table: map<Name, Name>, fit: Option<Name>): (r: Option<Name>)
    ensures r.Some? <==> fit.Some?
    ensures fit.Some? && fit.value !in table ==> r == fit
    ensures fit.Some? && fit.value in table ==> r == Some(table[fit.value])
  {
    match fit
    case None => None
    case Some(f) => if f in table then Some(table[f]) else Some(f)
  }

  /** A dimension as the decimal text every vendor writes. */
  function ShowPixels(p: Option<Pixels>): (r: Option<string>)
    ensures r.Some? <==> p.Some?
    ensures r.Some? ==> |r.value| > 0 && AllDigits(r.value)
  {
    match p
    case None => None
    case Some(n) => Some(NatToString(n))
  }

  /** Reads a dimension back; the outer None marks text that is not a positive count. */
  function ReadPixels(s: Option<string>): Option<Option<Pixels>> {
    match s
    case None => Some(None)
    case Some(t) =>
      match ParseNat(t)
      case Some(n) => if n >= 1 then Some(Some(n as Pixels)) else None
      case None => None
  }

  /** Reads a fit or format word back; the outer None marks an empty word. */
  function ReadName(s: Option<string>): Option<Option<Name>> {
    match s
    case None => Some(None)
    case Some(t) => if |t| > 0 then var n: Name := t; Some(Some(n)) else None
  }

  lemma ReadShowPixels(p: Option<Pixels>)
    ensures ReadPixels(ShowPixels(p)) == Some(p)
  {
    if p.Some? {
      ParseNatToString(p.value);
    }
  }

  /** The four fields as text, in the canonical order width, height, fit, format. */
  function Fields(m: Modifiers): (vs: seq<Option<string>>)
    ensures |vs| == 4
    ensures vs[0].Some? <==> m.width.Some?
    ensures vs[1].Some? <==> m.height.Some?
    ensures vs[2].Some? <==> m.fit.Some?
    ensures vs[3].Some? <==> m.format.Some?
  {
    [ShowPixels(m.width), ShowPixels(m.height), m.fit, m.format]
  }

  /** Rebuilds modifiers from four texts in the canonical order, rejecting malformed ones. */
  function FromFields(vs: seq<Option<string>>): Option<Modifiers>
    requires |vs| == 4
  {
    match (ReadPixels(vs[0]), ReadPixels(vs[1]), ReadName(vs[2]), ReadName(vs[3]))
    case (Some(w), Some(h), Some(f), Some(fm)) => Some(Modifiers(w, h, f, fm))
    case _ => None
  }

  /** The textual fields determine the modifiers: reading them back recovers every field. */
  lemma FromFieldsFields(m: Modifiers)
    ensures FromFields(Fields(m)) == Some(m)
  {
    ReadShowPixels(m.width);
    ReadShowPixels(m.height);
  }
}

=== FILE: optional.dfy ===
/** The optional value used throughout the adapters. */
module Optional {

  datatype Option<+T> = None | Some(value: T) {

    /** The wrapped value, or `default` when there is none. */
    function GetOr(default: T): T {
      match this
      case Some(v) => v
      case None => default
    }
  }
}

=== FILE: percent.dfy ===
/**
  Percent-encoding of a text as a URL component: the text's UTF-8 octets,
  each unreserved octet (ALPHA, DIGIT, `-`, `.`, `_`, `~`, section 2.3 of
  RFC 3986) kept as its character, every other octet written `%` and two
  upper-case hexadecimal digits (section 2.1 of RFC 3986).
 */
module Percent {
  import opened Optional
  import Utf8

  type Byte = Utf8.Byte

  predicate IsUnreservedChar(c: char) {
    ('A' <= c <= 'Z') || ('a' <= c <= 'z') || ('0' <= c <= '9') || c == '-' || c == '.' || c == '_' || c == '~'
  }

  predicate IsUnreserved(b: Byte) {
    IsUnreservedChar(b as char)
  }

  const HexDigits: string := "0123456789ABCDEF"

  function HexDigit(n: nat): (c: char)
    requires n < 16
    ensures IsUnreservedChar(c)
  {
    HexDigits[n]
  }

  /** The value of a hexadecimal digit of either case. */
  function HexValue(c: char): (r: Option<nat>)
    ensures r.Some? ==> r.value < 16
  {
    if '0' <= c <= '9' then Some(c as int - '0' as int)
    else if 'A' <= c <= 'F' then Some(c as int - 'A' as int + 10)
    else if 'a' <= c <= 'f' then Some(c as int - 'a' as int + 10)
    else None
  }

  function EncodeByte(b: Byte): (s: string)
    ensures IsUnreserved(b) ==> s == [b as char]
    ensures !IsUnreserved(b) ==> |s| == 3 && s[0] == '%'
  {
    if IsUnreserved(b) then [b as char] else ['%', HexDigit(b / 16), HexDigit(b % 16)]
  }

  function EncodeBytes(bs: seq<Byte>): string {
    if bs == [] then "" else EncodeByte(bs[0]) + EncodeBytes(bs[1..])
  }

  /** Reads percent-encoded text back into octets; a stray character or a bad escape is rejected. */
  function DecodeBytes(s: string): Option<seq<Byte>>
    decreases |s|
  {
    if s == [] then Some([])
    else if s[0] == '%' then
      if |s| < 3 then None
      else
        match (HexValue(s[1]), HexValue(s[2]), DecodeBytes(s[3..]))
        case (Some(hi), Some(lo), Some(rest)) => Some([hi * 16 + lo] + rest)
        case _ => None
    else if IsUnreservedChar(s[0]) then
      match DecodeBytes(s[1..])
      case None => None
      case Some(rest) => Some([s[0] as int] + rest)
    else None
  }

  /** The component encoding of a text. */
  function Encode(s: string): string {
    EncodeBytes(Utf8.Encode(s))
  }

  /** The text a component encoding stands for. */
  function Decode(t: string): Option<string> {
    match DecodeBytes(t)
    case None => None
    case Some(bs) => Utf8.Decode(bs)
  }

  lemma HexValueDigit(n: nat)
    requires n < 16
    ensures HexValue(HexDigit(n)) == Some(n)
  {
  }

  lemma DecodeEncodeByte(b: Byte, rest: string)
    ensures DecodeBytes(EncodeByte(b) + rest)
      == match DecodeBytes(rest)
         case None => None
         case Some(bs) => Some([b] + bs)
  {
    var s := EncodeByte(b) + rest;
    if IsUnreserved(b) {
      assert s[1..] == rest;
    } else {
      HexValueDigit(b / 16);
      HexValueDigit(b % 16);
      assert s[3..] == rest;
    }
  }

  lemma {:induction false} DecodeEncodeBytes(bs: seq<Byte>)
    ensures DecodeBytes(EncodeBytes(bs)) == Some(bs)
    decreases |bs|
  {
    if bs != [] {
      DecodeEncodeBytes(bs[1..]);
      DecodeEncodeByte(bs[0], EncodeBytes(bs[1..]));
      assert [bs[0]] + bs[1..] == bs;
    }
  }

  /** Decoding the component encoding of a text gives the text back. */
  lemma RoundTrip(s: string)
    ensures Decode(Encode(s)) == Some(s)
  {
    DecodeEncodeBytes(Utf8.Encode(s));
    Utf8.DecodeEncode(s);
  }

  /** The encoding only ever writes unreserved characters and `%`; in particular no `/`, `:` or `?`. */
  lemma {:induction false} EncodeAlphabet(s: string)
    ensures forall i :: 0 <= i < |Encode(s)| ==> IsUnreservedChar(Encode(s)[i]) || Encode(s)[i] == '%'
  {
    BytesAlphabet(Utf8.Encode(s));
  }

  lemma {:induction false} BytesAlphabet(bs: seq<Byte>)
    ensures forall i :: 0 <= i < |EncodeBytes(bs)| ==> IsUnreservedChar(EncodeBytes(bs)[i]) || EncodeBytes(bs)[i] == '%'
    decreases |bs|
  {
    if bs != [] {
      BytesAlphabet(bs[1..]);
      var head, tail := EncodeByte(bs[0]), EncodeBytes(bs[1..]);
      forall i | 0 <= i < |head + tail|
        ensures IsUnreservedChar((head + tail)[i]) || (head + tail)[i] == '%'
      {
        if i >= |head| {
          assert (head + tail)[i] == tail[i - |head|];
        }
      }
    }
  }

  lemma {:induction false} EncodeBytesAppend(a: seq<Byte>, b: seq<Byte>)
    ensures EncodeBytes(a + b) == EncodeBytes(a) + EncodeBytes(b)
    decreases |a|
  {
    if a != [] {
      assert (a + b)[0] == a[0];
      assert (a + b)[1..] == a[1..] + b;
      EncodeBytesAppend(a[1..], b);
    } else {
      assert a + b == b;
    }
  }

  /** Encoding distributes over concatenation. */
  lemma EncodeAppend(a: string, b: string)
    ensures Encode(a + b) == Encode(a) + Encode(b)
  {
    Utf8.EncodeAppend(a, b);
    EncodeBytesAppend(Utf8.Encode(a), Utf8.Encode(b));
  }

  /** A text of unreserved characters is its own encoding. */
  lemma {:induction false} EncodeUnreservedText(s: string)
    requires forall i :: 0 <= i < |s| ==> IsUnreservedChar(s[i])
    ensures Encode(s) == s
    decreases |s|
  {
    if s != [] {
      EncodeUnreservedText(s[1..]);
      assert s[0] as int < 0x80;
      assert Utf8.Encode(s) == [s[0] as int] + Utf8.Encode(s[1..]);
      assert EncodeBytes(Utf8.Encode(s)) == EncodeByte(s[0] as int) + EncodeBytes(Utf8.Encode(s[1..]));
      assert [s[0]] + s[1..] == s;
    }
  }
}

=== FILE: query_style.dfy ===
/**
  The shared grammar of the vendors that append a query to the source
  (fastly, imgix, imagekit): the source is kept as it is and, when the
  request carries at least one field, a lead text (`?` or `?tr=`) and the
  present fields as a token list follow, in the vendor's fixed key order.
  A request without any field leaves the source untouched.
 */
module QueryStyle {
  import opened Optional
  import opened Text
  import opened Tokens
  import opened Canonical

  /**
    One vendor's dialect: the lead text, the key/value and delimiter
    characters, the four keys for width, height, fit and format, and the
    vendor's fit table.
   */
  datatype Dialect = Dialect(
    lead: string,
    kv: char,
    delim: char,
    keys: seq<string>,
    fits: map<Name, Name>)

  predicate Valid(d: Dialect) {
    && |d.keys| == 4
    && Distinct(d.keys)
    && (forall i :: 0 <= i < |d.keys| ==> d.kv !in d.keys[i] && d.delim !in d.keys[i])
    && d.kv != d.delim
    && !IsDigit(d.delim)
    && |d.lead| > 0 && d.lead[0] == '?'
  }

  /** The request as the vendor sees it: the fit word renamed by the vendor's table. */
  function View(d: Dialect, m: Modifiers): Modifiers {
    m.(fit := Translate(d.fits, m.fit))
  }

  /** The query's tokens. */
  function Params(d: Dialect, m: Modifiers): seq<Token>
    requires |d.keys| == 4
  {
    Assemble(d.keys, Fields(View(d, m)))
  }

  function Encode(d: Dialect, base: string, src: string, m: Modifiers): (url: string)
    requires Valid(d)
    ensures IsEmpty(m) ==> url == base + src
    ensures !IsEmpty(m) ==> base + src + d.lead <= url
  {
    var ts := Params(d, m);
    AssembleEmpty(d.keys, Fields(View(d, m)));
    if ts == [] then base + src else base + src + d.lead + Render(ts, d.kv, d.delim)
  }

  /**
    Cuts a URL at its first `?`: the address in front and, when there is a
    query that starts with the lead text, its token list.
   */
  function Query(d: Dialect, url: string): Option<(string, Option<seq<Token>>)> {
    match SplitFirst(url, '?')
    case None => Some((url, None))
    case Some((prefix, after)) =>
      var rest := ['?'] + after;
      if d.lead <= rest then
        match Parse(rest[|d.lead|..], d.kv, d.delim)
        case None => None
        case Some(ts) => if ts == [] then None else Some((prefix, Some(ts)))
      else None
  }

  /** Reads a URL of this dialect back into its address and the vendor's view of the request. */
  function Decode(d: Dialect, url: string): Option<(string, Modifiers)>
    requires |d.keys| == 4
  {
    match Query(d, url)
    case None => None
    case Some((prefix, None)) => Some((prefix, NoModifiers))
    case Some((prefix, Some(ts))) =>
      match Disassemble(d.keys, ts)
      case None => None
      case Some(vs) =>
        match FromFields(vs)
        case None => None
        case Some(m) => Some((prefix, m))
  }

  /** The vendor's fit word and the format contain no delimiter. */
  predicate Clean(d: Dialect, m: Modifiers) {
    && (Translate(d.fits, m.fit).Some? ==> d.delim !in Translate(d.fits, m.fit).value)
    && (m.format.Some? ==> d.delim !in m.format.value)
  }

  lemma ParamsSafe(d: Dialect, m: Modifiers)
    requires Valid(d) && Clean(d, m)
    ensures Safe(Params(d, m), d.kv, d.delim)
  {
    var vs := Fields(View(d, m));
    forall i | 0 <= i < |vs| && vs[i].Some?
      ensures d.delim !in vs[i].value
    {
      if i < 2 {
        assert AllDigits(vs[i].value);
      }
    }
    AssembleSafe(d.keys, vs, d.kv, d.delim);
  }

  lemma CutAtLead(a: string, lead: string, r: string)
    requires '?' !in a && |lead| > 0 && lead[0] == '?'
    ensures SplitFirst(a + lead + r, '?') == Some((a, lead[1..] + r))
    ensures ['?'] + (lead[1..] + r) == lead + r
  {
    assert lead == ['?'] + lead[1..];
    assert a + lead + r == a + ['?'] + (lead[1..] + r);
    SplitFirstJoin(a, '?', lead[1..] + r);
  }

  /** The query of an encoded URL parses back to exactly the emitted tokens. */
  lemma QueryOfEncode(d: Dialect, base: string, src: string, m: Modifiers)
    requires Valid(d) && '?' !in base + src && Clean(d, m)
    ensures !IsEmpty(m) ==> Query(d, Encode(d, base, src, m)) == Some((base + src, Some(Params(d, m))))
    ensures IsEmpty(m) ==> Query(d, Encode(d, base, src, m)) == Some((base + src, None))
  {
    var ts := Params(d, m);
    AssembleEmpty(d.keys, Fields(View(d, m)));
    if ts != [] {
      var r := Render(ts, d.kv, d.delim);
      assert Encode(d, base, src, m) == base + src + d.lead + r;
      CutAtLead(base + src, d.lead, r);
      assert (d.lead + r)[|d.lead|..] == r;
      ParamsSafe(d, m);
      ParseRender(ts, d.kv, d.delim);
      RenderEmpty(ts, d.kv, d.delim);
    }
  }

  /**
    Decoding an encoded URL gives back the address and the request exactly,
    up to the vendor's renaming of the fit word: no field is lost, none is
    invented, and each keeps its value.
   */
  lemma RoundTrip(d: Dialect, base: string, src: string, m: Modifiers)
    requires Valid(d) && '?' !in base + src && Clean(d, m)
    ensures Decode(d, Encode(d, base, src, m)) == Some((base + src, View(d, m)))
  {
    QueryOfEncode(d, base, src, m);
    if !IsEmpty(m) {
      DisassembleAssemble(d.keys, Fields(View(d, m)));
      FromFieldsFields(View(d, m));
    }
  }

  /**
    Field `i` leaves the token `keys[i] = v` in the query exactly when the
    vendor's view of that field is `v`, and the tokens follow the key order.
   */
  lemma ParamContents(d: Dialect, m: Modifiers, i: nat, v: string)
    requires Valid(d) && i < 4
    ensures Token(d.keys[i], v) in Params(d, m) <==> Fields(View(d, m))[i] == Some(v)
    ensures InOrder(d.keys, Params(d, m))
  {
    AssembleContents(d.keys, Fields(View(d, m)), i, v);
    AssembleInOrder(d.keys, Fields(View(d, m)));
  }

  /** The query's tokens, field by field. */
  lemma ParamsFields(d: Dialect, m: Modifiers)
    requires |d.keys| == 4
    ensures Params(d, m)
      == Opt(d.keys[0], ShowPixels(m.width)) + Opt(d.keys[1], ShowPixels(m.height))
       + Opt(d.keys[2], Translate(d.fits, m.fit)) + Opt(d.keys[3], m.format)
  {
    AssembleFour(d.keys, Fields(View(d, m)));
  }

  /** The encoding written left to right: the address, then the tokens one by one after the lead. */
  lemma EncodeEmits(d: Dialect, base: string, src: string, m: Modifiers)
    requires Valid(d)
    ensures Encode(d, base, src, m) == Emit(base + src, d.lead, Params(d, m), d.kv, d.delim)
  {
    var ts := Params(d, m);
    if ts != [] {
      EmitRender(base + src, d.lead, ts, d.kv, d.delim);
    }
  }
}

=== FILE: rows.dfy ===
/**
  The requests of the reference table every adapter is held to: one image,
  `/test.png`, asked for with no modifiers, a width, a height, both, both
  fitted with `contain`, and all of that converted to `jpeg`.
 */
module Rows {
  import opened Optional
  import opened Canonical
  import opened Text

  const Source: string := "/test.png"

  const Width: Modifiers := Modifiers(Some(200), None, None, None)
  const Height: Modifiers := Modifiers(None, Some(200), None, None)
  const Both: Modifiers := Modifiers(Some(200), Some(200), None, None)
  const Contain: Modifiers := Modifiers(Some(200), Some(200), Some("contain"), None)
  const Jpeg: Modifiers := Modifiers(Some(200), Some(200), Some("contain"), Some("jpeg"))

  /** The pixel counts of the table, as every vendor writes them. */
  lemma Counts()
    ensures NatToString(200) == "200"
    ensures NatToString(300) == "300"
  {
    assert NatToString(2) == "2";
    assert NatToString(3) == "3";
    assert NatToString(20) == "20";
    assert NatToString(30) == "30";
  }
}

=== FILE: text.dfy ===
/**
  String helpers shared by every adapter: decimal rendering of pixel counts,
  joining and splitting on a separator character, and cutting a string at
  the first occurrence of a character.
 */
module Text {
  import opened Optional

  predicate IsDigit(c: char) {
    '0' <= c <= '9'
  }

  predicate AllDigits(s: string) {
    forall i :: 0 <= i < |s| ==> IsDigit(s[i])
  }

  function DigitChar(d: nat): (c: char)
    requires d < 10
    ensures IsDigit(c) && c as int - '0' as int == d
  {
    ('0' as int + d) as char
  }

  /** Decimal rendering, most significant digit first, no sign, no leading zero. */
  function NatToString(n: nat): (s: string)
    ensures |s| > 0 && AllDigits(s)
    ensures n > 0 ==> s[0] != '0'
    decreases n
  {
    if n < 10 then [DigitChar(n)] else NatToString(n / 10) + [DigitChar(n % 10)]
  }

  /** The number a run of decimal digits denotes. */
  function DigitsValue(s: string): nat
    requires AllDigits(s)
  {
    if s == [] then 0
    else DigitsValue(s[..|s| - 1]) * 10 + (s[|s| - 1] as int - '0' as int)
  }

  /** Reads a non-empty run of decimal digits; anything else is rejected. */
  function ParseNat(s: string): (r: Option<nat>)
    ensures r.Some? <==> |s| > 0 && AllDigits(s)
  {
    if |s| > 0 && AllDigits(s) then Some(DigitsValue(s)) else None
  }

  lemma {:induction false} DigitsValueOfNat(n: nat)
    ensures DigitsValue(NatToString(n)) == n
    decreases n
  {
    if n >= 10 {
      var s := NatToString(n);
      DigitsValueOfNat(n / 10);
      assert s[..|s| - 1] == NatToString(n / 10);
    }
  }

  /** Rendering a count and reading it back gives the count. */
  lemma ParseNatToString(n: nat)
    ensures ParseNat(NatToString(n)) == Some(n)
  {
    DigitsValueOfNat(n);
  }

  /** Position of the first occurrence of `c` in `s`. */
  function IndexOf(s: string, c: char): (i: nat)
    requires c in s
    ensures i < |s| && s[i] == c && c !in s[..i]
  {
    if s[0] == c then 0 else 1 + IndexOf(s[1..], c)
  }

  /** Cuts `s` at the first `c`: the text before it and the text after it. */
  function SplitFirst(s: string, c: char): (r: Option<(string, string)>)
    ensures r.None? <==> c !in s
    ensures r.Some? ==> s == r.value.0 + [c] + r.value.1 && c !in r.value.0
  {
    if c in s then
      var i := IndexOf(s, c);
      assert s == s[..i] + [c] + s[i + 1..];
      Some((s[..i], s[i + 1..]))
    else None
  }

  lemma SplitFirstJoin(a: string, c: char, b: string)
    requires c !in a
    ensures SplitFirst(a + [c] + b, c) == Some((a, b))
  {
    var s := a + [c] + b;
    assert s[|a|] == c;
    assert s[..|a|] == a;
    var i := IndexOf(s, c);
    assert i == |a|;
    assert s[..i] == a;
    assert s[i + 1..] == b;
  }

  /** The parts glued together with one `sep` between neighbours. */
  function Join(parts: seq<string>, sep: char): (s: string)
    ensures |parts| == 1 ==> s == parts[0]
  {
    if |parts| == 0 then ""
    else if |parts| == 1 then parts[0]
    else parts[0] + [sep] + Join(parts[1..], sep)
  }

  /** The maximal `sep`-free pieces of `s`, in order; never empty. */
  function Split(s: string, sep: char): (parts: seq<string>)
    ensures |parts| >= 1
    ensures forall i :: 0 <= i < |parts| ==> sep !in parts[i]
    decreases |s|
  {
    match SplitFirst(s, sep)
    case None => [s]
    case Some((a, b)) => [a] + Split(b, sep)
  }

  /** A separator-free first part splits off as the first piece. */
  lemma SplitCons(a: string, sep: char, b: string)
    requires sep !in a
    ensures Split(a + [sep] + b, sep) == [a] + Split(b, sep)
  {
    SplitFirstJoin(a, sep, b);
  }

  /** Splitting a joined list of separator-free parts gives the parts back. */
  lemma {:induction false} SplitJoin(parts: seq<string>, sep: char)
    requires |parts| >= 1
    requires forall i :: 0 <= i < |parts| ==> sep !in parts[i]
    ensures Split(Join(parts, sep), sep) == parts
    decreases |parts|
  {
    if |parts| > 1 {
      SplitCons(parts[0], sep, Join(parts[1..], sep));
      SplitJoin(parts[1..], sep);
      assert [parts[0]] + parts[1..] == parts;
    } else {
      assert sep !in parts[0];
    }
  }

  /** A character that is neither the separator nor in any part is not in the joined text. */
  lemma {:induction false} JoinFree(parts: seq<string>, sep: char, c: char)
    requires c != sep
    requires forall i :: 0 <= i < |parts| ==> c !in parts[i]
    ensures c !in Join(parts, sep)
    decreases |parts|
  {
    if |parts| > 1 {
      JoinFree(parts[1..], sep, c);
      assert c !in parts[0] + [sep];
    }
  }

  /** Position of the last occurrence of `c` in `s`, if any. */
  function LastIndexOf(s: string, c: char): (r: Option<nat>)
    ensures r.None? <==> c !in s
    ensures r.Some? ==> r.value < |s| && s[r.value] == c && c !in s[r.value + 1..]
  {
    if s == [] then None
    else if s[|s| - 1] == c then Some(|s| - 1)
    else
      var r := LastIndexOf(s[..|s| - 1], c);
      assert s == s[..|s| - 1] + [s[|s| - 1]];
      if r.Some? then
        assert s[r.value + 1..] == s[..|s| - 1][r.value + 1..] + [s[|s| - 1]];
        r
      else r
  }
}

=== FILE: tokens.dfy ===
/**
  Key/value token lists, the building block of every comma- or
  ampersand-separated vendor grammar: `width=200&height=200`,
  `w-200,h-200`, `f_auto,q_auto,w_200`.

  A token is written `key`, a key/value character, then `value`; tokens are
  glued with a delimiter. A vendor grammar fixes an ordered list of keys and
  emits the token for a key only when the request carries that field.
 */
module Tokens {
  import opened Optional
  import opened Text

  datatype Token = Token(key: string, value: string)

  function Show(t: Token, kv: char): string {
    t.key + [kv] + t.value
  }

  function ShowAll(ts: seq<Token>, kv: char): (ss: seq<string>)
    ensures |ss| == |ts|
    ensures forall i :: 0 <= i < |ts| ==> ss[i] == Show(ts[i], kv)
  {
    if ts == [] then [] else [Show(ts[0], kv)] + ShowAll(ts[1..], kv)
  }

  /** The tokens written out and glued with `delim`. */
  function Render(ts: seq<Token>, kv: char, delim: char): string {
    Join(ShowAll(ts, kv), delim)
  }

  /** Reads one `key<kv>value` piece, cutting at the first `kv`. */
  function ReadToken(s: string, kv: char): (r: Option<Token>)
    ensures r.Some? <==> kv in s
  {
    match SplitFirst(s, kv)
    case None => None
    case Some((k, v)) => Some(Token(k, v))
  }

  function ReadAll(pieces: seq<string>, kv: char): (r: Option<seq<Token>>)
    ensures r.Some? ==> |r.value| == |pieces|
  {
    if pieces == [] then Some([])
    else
      match (ReadToken(pieces[0], kv), ReadAll(pieces[1..], kv))
      case (Some(t), Some(ts)) => Some([t] + ts)
      case _ => None
  }

  /** Reads a token list; the empty text is the empty list. */
  function Parse(s: string, kv: char, delim: char): Option<seq<Token>> {
    if s == [] then Some([]) else ReadAll(Split(s, delim), kv)
  }

  /** Keys free of both punctuation characters, values free of the delimiter. */
  predicate Safe(ts: seq<Token>, kv: char, delim: char) {
    forall i :: 0 <= i < |ts| ==>
      kv !in ts[i].key && delim !in ts[i].key && delim !in ts[i].value
  }

  lemma RenderEmpty(ts: seq<Token>, kv: char, delim: char)
    ensures Render(ts, kv, delim) == [] <==> ts == []
  {
    if ts != [] {
      var ss := ShowAll(ts, kv);
      if |ts| == 1 {
        assert ss[0][|ts[0].key|] == kv;
      } else {
        assert Render(ts, kv, delim)[|ss[0]|] == delim;
      }
    }
  }

  lemma {:induction false} ReadAllShowAll(ts: seq<Token>, kv: char, delim: char)
    requires Safe(ts, kv, delim)
    ensures ReadAll(ShowAll(ts, kv), kv) == Some(ts)
    decreases |ts|
  {
    if ts != [] {
      SplitFirstJoin(ts[0].key, kv, ts[0].value);
      assert ShowAll(ts, kv)[1..] == ShowAll(ts[1..], kv);
      ReadAllShowAll(ts[1..], kv, delim);
      assert [ts[0]] + ts[1..] == ts;
    }
  }

  /** Parsing a rendered, safe token list recovers it exactly. */
  lemma ParseRender(ts: seq<Token>, kv: char, delim: char)
    requires kv != delim && Safe(ts, kv, delim)
    ensures Parse(Render(ts, kv, delim), kv, delim) == Some(ts)
  {
    RenderEmpty(ts, kv, delim);
    if ts != [] {
      var ss := ShowAll(ts, kv);
      forall i | 0 <= i < |ss|
        ensures delim !in ss[i]
      {
        assert ss[i] == ts[i].key + [kv] + ts[i].value;
      }
      SplitJoin(ss, delim);
      ReadAllShowAll(ts, kv, delim);
    }
  }

  /** The token for `key` when the field is present, nothing otherwise. */
  function Opt(key: string, v: Option<string>): seq<Token> {
    match v
    case None => []
    case Some(x) => [Token(key, x)]
  }

  /** The present fields as tokens, in the order of `keys`. */
  function Assemble(keys: seq<string>, vals: seq<Option<string>>): (ts: seq<Token>)
    requires |keys| == |vals|
    ensures |ts| <= |keys|
    ensures forall j :: 0 <= j < |ts| ==> ts[j].key in keys
    decreases |keys|
  {
    if keys == [] then [] else Opt(keys[0], vals[0]) + Assemble(keys[1..], vals[1..])
  }

  /** Reads the fields back, consuming the tokens in the order of `keys`. */
  function Disassemble(keys: seq<string>, ts: seq<Token>): (r: Option<seq<Option<string>>>)
    ensures r.Some? ==> |r.value| == |keys|
    decreases |keys|
  {
    if keys == [] then (if ts == [] then Some([]) else None)
    else
      var here := ts != [] && ts[0].key == keys[0];
      var v: Option<string> := if here then Some(ts[0].value) else None;
      var rest := if here then ts[1..] else ts;
      match Disassemble(keys[1..], rest)
      case None => None
      case Some(vs) => Some([v] + vs)
  }

  predicate Distinct(keys: seq<string>) {
    forall i, j :: 0 <= i < j < |keys| ==> keys[i] != keys[j]
  }

  /** Position of a key in the key order. */
  function Rank(keys: seq<string>, k: string): nat
    requires k in keys
  {
    if keys[0] == k then 0 else 1 + Rank(keys[1..], k)
  }

  lemma {:induction false} AssembleEmpty(keys: seq<string>, vals: seq<Option<string>>)
    requires |keys| == |vals|
    ensures Assemble(keys, vals) == [] <==> forall i :: 0 <= i < |vals| ==> vals[i].None?
    decreases |keys|
  {
    if keys != [] {
      AssembleEmpty(keys[1..], vals[1..]);
      if Assemble(keys, vals) == [] {
        forall i | 0 <= i < |vals|
          ensures vals[i].None?
        {
          if i > 0 {
            assert vals[i] == vals[1..][i - 1];
          }
        }
      }
    }
  }

  /** Reading back an assembled token list recovers every field, present or absent. */
  lemma {:induction false} DisassembleAssemble(keys: seq<string>, vals: seq<Option<string>>)
    requires |keys| == |vals| && Distinct(keys)
    ensures Disassemble(keys, Assemble(keys, vals)) == Some(vals)
    decreases |keys|
  {
    if keys != [] {
      var tail := Assemble(keys[1..], vals[1..]);
      assert Distinct(keys[1..]) by {
        forall i, j | 0 <= i < j < |keys[1..]|
          ensures keys[1..][i] != keys[1..][j]
        {
          assert keys[1..][i] == keys[i + 1] && keys[1..][j] == keys[j + 1];
        }
      }
      DisassembleAssemble(keys[1..], vals[1..]);
      if tail != [] {
        assert tail[0].key in keys[1..];
        assert tail[0].key != keys[0];
      }
      assert [vals[0]] + vals[1..] == vals;
      var ts := Assemble(keys, vals);
      if vals[0].Some? {
        assert ts == [Token(keys[0], vals[0].value)] + tail;
        assert ts[0].key == keys[0] && ts[1..] == tail;
      } else {
        assert ts == tail;
      }
    }
  }

  /**
    The token `key = v` is emitted exactly when the field at that key is
    present with text `v`: an absent field leaves no token behind.
   */
  lemma {:induction false} AssembleContents(keys: seq<string>, vals: seq<Option<string>>, i: nat, v: string)
    requires |keys| == |vals| && Distinct(keys) && i < |keys|
    ensures Token(keys[i], v) in Assemble(keys, vals) <==> vals[i] == Some(v)
    decreases |keys|
  {
    var ts := Assemble(keys, vals);
    var tail := Assemble(keys[1..], vals[1..]);
    assert ts == Opt(keys[0], vals[0]) + tail;
    assert Distinct(keys[1..]) by {
      forall a, b | 0 <= a < b < |keys[1..]|
        ensures keys[1..][a] != keys[1..][b]
      {
        assert keys[1..][a] == keys[a + 1] && keys[1..][b] == keys[b + 1];
      }
    }
    if i > 0 {
      AssembleContents(keys[1..], vals[1..], i - 1, v);
      assert keys[1..][i - 1] == keys[i];
    }
  }

  lemma RankOfTail(keys: seq<string>, k: string)
    requires Distinct(keys) && |keys| > 0 && k in keys[1..]
    ensures k in keys && Rank(keys, k) == 1 + Rank(keys[1..], k)
  {
    var j :| 0 <= j < |keys[1..]| && keys[1..][j] == k;
    assert keys[j + 1] == k;
  }

  predicate InOrder(keys: seq<string>, ts: seq<Token>)
    requires forall j :: 0 <= j < |ts| ==> ts[j].key in keys
  {
    forall a, b :: 0 <= a < b < |ts| ==> Rank(keys, ts[a].key) < Rank(keys, ts[b].key)
  }

  /** Tokens come out strictly in the vendor's key order. */
  lemma {:induction false} AssembleInOrder(keys: seq<string>, vals: seq<Option<string>>)
    requires |keys| == |vals| && Distinct(keys)
    ensures InOrder(keys, Assemble(keys, vals))
    decreases |keys|
  {
    if keys != [] {
      var tail := Assemble(keys[1..], vals[1..]);
      var ts := Assemble(keys, vals);
      assert Distinct(keys[1..]) by {
        forall a, b | 0 <= a < b < |keys[1..]|
          ensures keys[1..][a] != keys[1..][b]
        {
          assert keys[1..][a] == keys[a + 1] && keys[1..][b] == keys[b + 1];
        }
      }
      AssembleInOrder(keys[1..], vals[1..]);
      var off := |Opt(keys[0], vals[0])|;
      assert ts == Opt(keys[0], vals[0]) + tail;
      forall a, b | 0 <= a < b < |ts|
        ensures Rank(keys, ts[a].key) < Rank(keys, ts[b].key)
      {
        assert ts[b] == tail[b - off];
        RankOfTail(keys, ts[b].key);
        if a >= off {
          assert ts[a] == tail[a - off];
          RankOfTail(keys, ts[a].key);
        } else {
          assert ts[a].key == keys[0];
        }
      }
    }
  }

  /** Keys free of punctuation and present values free of the delimiter make a safe list. */
  lemma {:induction false} AssembleSafe(keys: seq<string>, vals: seq<Option<string>>, kv: char, delim: char)
    requires |keys| == |vals|
    requires forall i :: 0 <= i < |keys| ==> kv !in keys[i] && delim !in keys[i]
    requires forall i :: 0 <= i < |vals| && vals[i].Some? ==> delim !in vals[i].value
    ensures Safe(Assemble(keys, vals), kv, delim)
    decreases |keys|
  {
    if keys != [] {
      AssembleSafe(keys[1..], vals[1..], kv, delim);
      var tail := Assemble(keys[1..], vals[1..]);
      var ts := Assemble(keys, vals);
      var off := |Opt(keys[0], vals[0])|;
      assert ts == Opt(keys[0], vals[0]) + tail;
      forall j | 0 <= j < |ts|
        ensures kv !in ts[j].key && delim !in ts[j].key && delim !in ts[j].value
      {
        if j >= off {
          assert ts[j] == tail[j - off];
        }
      }
    }
  }

  /** Rendering a list is rendering its head, the delimiter, then the rest. */
  lemma RenderCons(t: Token, ts: seq<Token>, kv: char, delim: char)
    requires ts != []
    ensures Render([t] + ts, kv, delim) == Show(t, kv) + [delim] + Render(ts, kv, delim)
  {
    assert ShowAll([t] + ts, kv) == [Show(t, kv)] + ShowAll(ts, kv);
    assert ([Show(t, kv)] + ShowAll(ts, kv))[1..] == ShowAll(ts, kv);
  }

  lemma RenderSingle(t: Token, kv: char, delim: char)
    ensures Render([t], kv, delim) == Show(t, kv)
  {
    assert ShowAll([t], kv) == [Show(t, kv)];
  }

  /** The assembly of a four-key grammar, written out. */
  lemma AssembleFour(keys: seq<string>, vals: seq<Option<string>>)
    requires |keys| == 4 && |vals| == 4
    ensures Assemble(keys, vals)
      == Opt(keys[0], vals[0]) + Opt(keys[1], vals[1]) + Opt(keys[2], vals[2]) + Opt(keys[3], vals[3])
  {
    var o0, o1, o2, o3 := Opt(keys[0], vals[0]), Opt(keys[1], vals[1]), Opt(keys[2], vals[2]), Opt(keys[3], vals[3]);
    assert Assemble(keys[4..], vals[4..]) == [];
    assert Assemble(keys[3..], vals[3..]) == o3;
    assert Assemble(keys[2..], vals[2..]) == o2 + o3;
    assert Assemble(keys[1..], vals[1..]) == o1 + (o2 + o3);
    assert o0 + (o1 + (o2 + o3)) == o0 + o1 + o2 + o3;
  }

  /**
    The rendering written left to right onto `acc`: the first token after
    `sep`, every later one after the delimiter.
   */
  function Emit(acc: string, sep: string, ts: seq<Token>, kv: char, delim: char): string
    decreases |ts|
  {
    if ts == [] then acc else Emit(acc + (sep + Show(ts[0], kv)), [delim], ts[1..], kv, delim)
  }

  /** Writing tokens one by one gives the same text as rendering the list after `sep`. */
  lemma {:induction false} EmitRender(acc: string, sep: string, ts: seq<Token>, kv: char, delim: char)
    requires ts != []
    ensures Emit(acc, sep, ts, kv, delim) == acc + sep + Render(ts, kv, delim)
    decreases |ts|
  {
    var head := acc + (sep + Show(ts[0], kv));
    if |ts| == 1 {
      RenderSingle(ts[0], kv, delim);
      assert Emit(head, [delim], ts[1..], kv, delim) == head;
    } else {
      EmitRender(head, [delim], ts[1..], kv, delim);
      RenderCons(ts[0], ts[1..], kv, delim);
      assert [ts[0]] + ts[1..] == ts;
    }
  }

  /** A character used neither as punctuation nor in any key or value does not occur in the rendering. */
  lemma RenderFree(ts: seq<Token>, kv: char, delim: char, c: char)
    requires c != kv && c != delim
    requires forall i :: 0 <= i < |ts| ==> c !in ts[i].key && c !in ts[i].value
    ensures c !in Render(ts, kv, delim)
  {
    var ss := ShowAll(ts, kv);
    forall i | 0 <= i < |ss|
      ensures c !in ss[i]
    {
      assert ss[i] == ts[i].key + [kv] + ts[i].value;
    }
    JoinFree(ss, delim, c);
  }

  /* `Emit` over short lists, written out piece by piece. */

  lemma EmitOne(acc: string, sep: string, t0: Token, kv: char, delim: char)
    ensures Emit(acc, sep, [t0], kv, delim) == acc + (sep + Show(t0, kv))
  {
    assert [t0][1..] == [];
  }

  lemma EmitTwo(acc: string, sep: string, t0: Token, t1: Token, kv: char, delim: char)
    ensures Emit(acc, sep, [t0, t1], kv, delim)
      == acc + (sep + Show(t0, kv)) + ([delim] + Show(t1, kv))
  {
    assert [t0, t1][1..] == [t1];
    EmitOne(acc + (sep + Show(t0, kv)), [delim], t1, kv, delim);
  }

  lemma EmitThree(acc: string, sep: string, t0: Token, t1: Token, t2: Token, kv: char, delim: char)
    ensures Emit(acc, sep, [t0, t1, t2], kv, delim)
      == acc + (sep + Show(t0, kv)) + ([delim] + Show(t1, kv)) + ([delim] + Show(t2, kv))
  {
    assert [t0, t1, t2][1..] == [t1, t2];
    EmitTwo(acc + (sep + Show(t0, kv)), [delim], t1, t2, kv, delim);
  }

  lemma EmitFour(acc: string, sep: string, t0: Token, t1: Token, t2: Token, t3: Token, kv: char, delim: char)
    ensures Emit(acc, sep, [t0, t1, t2, t3], kv, delim)
      == acc + (sep + Show(t0, kv)) + ([delim] + Show(t1, kv)) + ([delim] + Show(t2, kv))
         + ([delim] + Show(t3, kv))
  {
    assert [t0, t1, t2, t3][1..] == [t1, t2, t3];
    EmitThree(acc + (sep + Show(t0, kv)), [delim], t1, t2, t3, kv, delim);
  }

  lemma EmitFive(acc: string, sep: string, t0: Token, t1: Token, t2: Token, t3: Token, t4: Token,
                 kv: char, delim: char)
    ensures Emit(acc, sep, [t0, t1, t2, t3, t4], kv, delim)
      == acc + (sep + Show(t0, kv)) + ([delim] + Show(t1, kv)) + ([delim] + Show(t2, kv))
         + ([delim] + Show(t3, kv)) + ([delim] + Show(t4, kv))
  {
    assert [t0, t1, t2, t3, t4][1..] == [t1, t2, t3, t4];
    EmitFour(acc + (sep + Show(t0, kv)), [delim], t1, t2, t3, t4, kv, delim);
  }
}

=== FILE: twicpics.dfy ===
/**
  The twicpics adapter: a `twic=v1` query directive followed by a
  slash-separated chain of manipulations: an optional `format=<fmt>`, then
  one `<fit>=<W>x<H>` step whose fit defaults to `cover` and whose missing
  dimension is written `-`.
 */
module Twicpics {
  import opened Optional
  import opened Text
  import opened Canonical
  import Rows

  const Marker: string := "twic=v1"
  const DefaultFit: Name := "cover"

  /** One side of the `WxH` pair. */
  function Dim(p: Option<Pixels>): (s: string)
    ensures p.None? <==> s == "-"
    ensures p.Some? ==> s == NatToString(p.value)
  {
    match p
    case None => "-"
    case Some(n) => NatToString(n)
  }

  /** The resize step: `/<fit>=<W>x<H>`. */
  function Step(m: Modifiers): string {
    "/" + (m.fit.GetOr(DefaultFit) + "=" + Dim(m.width) + "x" + Dim(m.height))
  }

  /** The image URL for `src` under `base`; without modifiers it is the source itself. */
  function Url(base: string, src: string, m: Modifiers): (url: string)
    ensures IsEmpty(m) ==> url == base + src
    ensures !IsEmpty(m) ==> base + src + "?" + Marker <= url
    ensures !IsEmpty(m) ==> |Step(m)| <= |url| && url[|url| - |Step(m)|..] == Step(m)
    ensures !IsEmpty(m) && m.format.None? ==> url == base + src + "?" + Marker + Step(m)
    ensures !IsEmpty(m) && m.format.Some? ==> base + src + "?" + Marker + "/format=" + m.format.value <= url
    ensures !IsEmpty(m) && m.format.Some? ==>
      |url| == |base + src + "?" + Marker| + |"/format=" + m.format.value| + |Step(m)|
  {
    if IsEmpty(m) then base + src
    else if m.format.Some? then base + src + "?twic=v1" + ("/format=" + m.format.value) + Step(m)
    else base + src + "?twic=v1" + Step(m)
  }

  /** The request as twicpics sees it: once anything is asked, the fit is explicit. */
  function View(m: Modifiers): Modifiers {
    if IsEmpty(m) then m else m.(fit := Some(m.fit.GetOr(DefaultFit)))
  }

  /** Reads one side of the `WxH` pair back. */
  function ReadDim(s: string): Option<Option<Pixels>> {
    if s == "-" then Some(None) else ReadPixels(Some(s))
  }

  /** Reads a resize step (without its leading slash) back, with the format read before it. */
  function ReadStep(s: string, format: Option<Name>): Option<Modifiers> {
    match SplitFirst(s, '=')
    case None => None
    case Some((fit, dims)) =>
      match SplitFirst(dims, 'x')
      case None => None
      case Some((w, h)) =>
        match (ReadDim(w), ReadDim(h), ReadName(Some(fit)))
        case (Some(pw), Some(ph), Some(Some(f))) => Some(Modifiers(pw, ph, Some(f), format))
        case _ => None
  }

  /** Reads the manipulation chain that follows the marker. */
  function ReadChain(parts: seq<string>): Option<Modifiers> {
    if |parts| == 2 && parts[0] == "" then ReadStep(parts[1], None)
    else if |parts| == 3 && parts[0] == "" && "format=" <= parts[1] && |parts[1]| > 7 then
      var f: Name := parts[1][7..];
      ReadStep(parts[2], Some(f))
    else None
  }

  /** Reads a twicpics URL back into its address and the request as twicpics sees it. */
  function Decode(url: string): Option<(string, Modifiers)> {
    match SplitFirst(url, '?')
    case None => Some((url, NoModifiers))
    case Some((prefix, after)) =>
      if Marker <= after then
        match ReadChain(Split(after[|Marker|..], '/'))
        case None => None
        case Some(m) => Some((prefix, m))
      else None
  }

  lemma ReadDimDim(p: Option<Pixels>)
    ensures ReadDim(Dim(p)) == Some(p)
  {
    if p.Some? {
      ReadShowPixels(p);
      assert Dim(p) != "-" by {
        assert IsDigit(Dim(p)[0]);
      }
    }
  }

  lemma ReadStepStep(m: Modifiers, format: Option<Name>)
    requires m.fit.Some? ==> '=' !in m.fit.value
    ensures ReadStep(Step(m)[1..], format)
              == Some(Modifiers(m.width, m.height, Some(m.fit.GetOr(DefaultFit)), format))
  {
    var fit := m.fit.GetOr(DefaultFit);
    var w, h := Dim(m.width), Dim(m.height);
    assert Step(m)[1..] == fit + ['='] + (w + ['x'] + h);
    SplitFirstJoin(fit, '=', w + ['x'] + h);
    assert 'x' !in w by {
      if m.width.Some? { assert AllDigits(w); }
    }
    SplitFirstJoin(w, 'x', h);
    ReadDimDim(m.width);
    ReadDimDim(m.height);
  }

  /** The slash-separated pieces of the chain after the marker; the first is empty. */
  function Parts(m: Modifiers): seq<string> {
    if m.format.Some? then ["", "format=" + m.format.value, Step(m)[1..]] else ["", Step(m)[1..]]
  }

  lemma UrlParts(base: string, src: string, m: Modifiers)
    requires !IsEmpty(m)
    ensures Url(base, src, m) == base + src + ['?'] + (Marker + Join(Parts(m), '/'))
  {
    var step := Step(m)[1..];
    assert Step(m) == "/" + step;
    if m.format.Some? {
      var fm := "format=" + m.format.value;
      assert Url(base, src, m) == base + src + "?twic=v1" + ("/" + fm) + ("/" + step);
      assert Join(Parts(m), '/') == "" + "/" + (fm + "/" + step);
      RegroupFormat(base + src, fm, step);
    } else {
      assert Url(base, src, m) == base + src + "?twic=v1" + ("/" + step);
      assert Join(Parts(m), '/') == "" + "/" + step;
      RegroupPlain(base + src, step);
    }
  }

  lemma RegroupFormat(pre: string, fm: string, step: string)
    ensures pre + "?twic=v1" + ("/" + fm) + ("/" + step) == pre + ['?'] + (Marker + ("" + "/" + (fm + "/" + step)))
  {
    assert "?twic=v1" == ['?'] + Marker;
  }

  lemma RegroupPlain(pre: string, step: string)
    ensures pre + "?twic=v1" + ("/" + step) == pre + ['?'] + (Marker + ("" + "/" + step))
  {
    assert "?twic=v1" == ['?'] + Marker;
  }

  lemma StepSlashFree(m: Modifiers)
    requires m.fit.Some? ==> '/' !in m.fit.value
    ensures '/' !in Step(m)[1..]
  {
    var fit := m.fit.GetOr(DefaultFit);
    assert Step(m)[1..] == fit + "=" + Dim(m.width) + "x" + Dim(m.height);
    if m.width.Some? { assert AllDigits(Dim(m.width)); }
    if m.height.Some? { assert AllDigits(Dim(m.height)); }
  }

  lemma PartsSlashFree(m: Modifiers)
    requires m.fit.Some? ==> '/' !in m.fit.value
    requires m.format.Some? ==> '/' !in m.format.value
    ensures forall i :: 0 <= i < |Parts(m)| ==> '/' !in Parts(m)[i]
  {
    StepSlashFree(m);
    if m.format.Some? {
      FormatPiece(m.format.value);
    }
  }

  lemma ReadChainParts(m: Modifiers)
    requires !IsEmpty(m)
    requires m.fit.Some? ==> '=' !in m.fit.value
    requires m.format.Some? ==> '/' !in m.format.value
    ensures ReadChain(Parts(m)) == Some(View(m))
  {
    ReadStepStep(m, m.format);
    if m.format.Some? {
      FormatPiece(m.format.value);
      var ps := Parts(m);
      assert |ps| == 3 && ps[0] == "" && "format=" <= ps[1] && |ps[1]| > 7;
      assert ps[1][7..] == m.format.value;
    }
  }

  lemma FormatPiece(f: Name)
    requires '/' !in f
    ensures "format=" <= "format=" + f && |"format=" + f| > 7 && ("format=" + f)[7..] == f
    ensures '/' !in "format=" + f
  {
    var fm := "format=" + f;
    assert forall i :: 0 <= i < |fm| ==> fm[i] == if i < 7 then "format="[i] else f[i - 7];
  }

  /**
    Decoding a URL gives back the address and the request exactly, up to
    the default fit that the chain always spells out.
   */
  lemma RoundTrip(base: string, src: string, m: Modifiers)
    requires '?' !in base + src
    requires m.fit.Some? ==> '/' !in m.fit.value && '=' !in m.fit.value
    requires m.format.Some? ==> '/' !in m.format.value
    ensures Decode(Url(base, src, m)) == Some((base + src, View(m)))
  {
    if !IsEmpty(m) {
      var chain := Join(Parts(m), '/');
      UrlParts(base, src, m);
      SplitFirstJoin(base + src, '?', Marker + chain);
      assert (Marker + chain)[|Marker|..] == chain;
      PartsSlashFree(m);
      ReadChainParts(m);
      SplitJoin(Parts(m), '/');
    }
  }

  /** Literal pieces of the reference URLs, stated apart so that the solver joins each piece once. */
  lemma Pieces()
    ensures Step(Rows.Width) == "/cover=200x-"
    ensures Step(Rows.Height) == "/cover=-x200"
    ensures Step(Rows.Both) == "/cover=200x200"
    ensures Step(Rows.Contain) == "/contain=200x200"
    ensures Step(Rows.Jpeg) == "/contain=200x200"
  {
    Rows.Counts();
  }

  /** The reference rows (base URL empty): each URL exactly as the table gives it, written as the
    concatenation of its literal pieces so that the solver need not split one long literal. */
  lemma Reference()
    ensures Url("", Rows.Source, NoModifiers) == "/test.png"
    ensures Url("", Rows.Source, Rows.Width) == "/test.png" + "?twic=v1" + "/cover=200x-"
    ensures Url("", Rows.Source, Rows.Height) == "/test.png" + "?twic=v1" + "/cover=-x200"
    ensures Url("", Rows.Source, Rows.Both) == "/test.png" + "?twic=v1" + "/cover=200x200"
    ensures Url("", Rows.Source, Rows.Contain) == "/test.png" + "?twic=v1" + "/contain=200x200"
    ensures Url("", Rows.Source, Rows.Jpeg)
      == "/test.png" + "?twic=v1" + "/format=jpeg" + "/contain=200x200"
  {
    Pieces();
    assert "" + Rows.Source == "/test.png";
  }
}

=== FILE: utf8.dfy ===
/**
  UTF-8, the octet encoding the local adapter applies to a source URL before
  percent-encoding it: each Unicode scalar value becomes one to four octets,
  shortest form, as in section 3 of RFC 3629.
 */
module Utf8 {
  import opened Optional

  type Byte = b: int | 0 <= b < 256

  predicate IsContinuation(b: Byte) {
    0x80 <= b < 0xC0
  }

  /** The six payload bits of a continuation octet. */
  function Low(b: Byte): int {
    b as int - 0x80
  }

  /** Integers that are Unicode scalar values: every code point except the surrogates. */
  predicate IsScalar(n: int) {
    0 <= n < 0xD800 || 0xE000 <= n < 0x11_0000
  }

  /** The octets of one character. */
  function EncodeChar(c: char): (bs: seq<Byte>)
    ensures 1 <= |bs| <= 4
    ensures (|bs| == 1) <==> c as int < 0x80
    ensures |bs| == 1 ==> bs[0] == c as int
    ensures forall i :: 1 <= i < |bs| ==> IsContinuation(bs[i])
  {
    var cp := c as int;
    if cp < 0x80 then [cp]
    else if cp < 0x800 then [0xC0 + cp / 64, 0x80 + cp % 64]
    else if cp < 0x1_0000 then [0xE0 + cp / 4096, 0x80 + (cp / 64) % 64, 0x80 + cp % 64]
    else [0xF0 + cp / 262144, 0x80 + (cp / 4096) % 64, 0x80 + (cp / 64) % 64, 0x80 + cp % 64]
  }

  function Encode(s: string): (bs: seq<Byte>)
    ensures |bs| >= |s|
  {
    if s == [] then [] else EncodeChar(s[0]) + Encode(s[1..])
  }

  /** A decoded code point with the number of octets it took, when it is a scalar value. */
  function Scalar(n: int, len: nat): (r: Option<(char, nat)>)
    ensures r.Some? ==> r.value.1 == len
  {
    if IsScalar(n) then Some((n as char, len)) else None
  }

  /** Reads one character off the front: its lead octet gives the length. */
  function DecodeChar(bs: seq<Byte>): (r: Option<(char, nat)>)
    requires |bs| > 0
    ensures r.Some? ==> 1 <= r.value.1 <= |bs|
  {
    var b0: int := bs[0];
    if b0 < 0x80 then Some((b0 as char, 1))
    else if 0xC0 <= b0 < 0xE0 && |bs| >= 2 && IsContinuation(bs[1]) then
      Scalar((b0 - 0xC0) * 64 + Low(bs[1]), 2)
    else if 0xE0 <= b0 < 0xF0 && |bs| >= 3 && IsContinuation(bs[1]) && IsContinuation(bs[2]) then
      Scalar(((b0 - 0xE0) * 64 + Low(bs[1])) * 64 + Low(bs[2]), 3)
    else if 0xF0 <= b0 < 0xF8 && |bs| >= 4 && IsContinuation(bs[1]) && IsContinuation(bs[2])
            && IsContinuation(bs[3]) then
      Scalar((((b0 - 0xF0) * 64 + Low(bs[1])) * 64 + Low(bs[2])) * 64 + Low(bs[3]), 4)
    else None
  }

  /** Reads octets back into text; malformed input is rejected. */
  function Decode(bs: seq<Byte>): Option<string>
    decreases |bs|
  {
    if bs == [] then Some("")
    else
      match DecodeChar(bs)
      case None => None
      case Some((c, k)) =>
        match Decode(bs[k..])
        case None => None
        case Some(s) => Some([c] + s)
  }

  lemma DecodeEncodeChar(c: char, rest: seq<Byte>)
    ensures DecodeChar(EncodeChar(c) + rest) == Some((c, |EncodeChar(c)|))
  {
    var cp := c as int;
    var bs := EncodeChar(c) + rest;
    if cp < 0x80 {
    } else if cp < 0x800 {
      assert (cp / 64) * 64 + cp % 64 == cp;
    } else if cp < 0x1_0000 {
      var q := cp / 64;
      assert q / 64 == cp / 4096;
      assert (q / 64) * 64 + q % 64 == q;
      assert q * 64 + cp % 64 == cp;
    } else {
      var q := cp / 64;
      var r := q / 64;
      assert r == cp / 4096;
      assert r / 64 == cp / 262144;
      assert (r / 64) * 64 + r % 64 == r;
      assert (q / 64) * 64 + q % 64 == q;
      assert q * 64 + cp % 64 == cp;
    }
  }

  /** Decoding the octets of a text gives the text back. */
  lemma {:induction false} DecodeEncode(s: string)
    ensures Decode(Encode(s)) == Some(s)
    decreases |s|
  {
    if s != [] {
      var head := EncodeChar(s[0]);
      var tail := Encode(s[1..]);
      DecodeEncodeChar(s[0], tail);
      assert (head + tail)[|head|..] == tail;
      DecodeEncode(s[1..]);
      assert [s[0]] + s[1..] == s;
    }
  }

  lemma {:induction false} EncodeAppend(a: string, b: string)
    ensures Encode(a + b) == Encode(a) + Encode(b)
    decreases |a|
  {
    if a != [] {
      assert (a + b)[0] == a[0];
      assert (a + b)[1..] == a[1..] + b;
      EncodeAppend(a[1..], b);
    } else {
      assert a + b == b;
    }
  }
}
